=== FILE: README.md ===
# MCP gateway, client routing and notes — a Dafny model

This project models three parts of an MCP (Model Context Protocol) tool stack:

- **The aggregating gateway** (`MCPGateway` in `mcp_gateway/server.py`). It keeps a registry of downstream MCP servers, keyed by server id and in insertion order, and connects to each of them over stdio, SSE or streamable-http. It republishes every downstream tool under the namespaced name `<server_id>.<tool>`, with routing metadata attached. A route table sends each namespaced name back to `(server_id, original_name)`. The gateway rebuilds its aggregated catalog from the per-server lists.
- **The gateway's admin surface.** At run time, `admin.register_server` and `admin.unregister_server` add and remove servers, and `admin.list_servers` lists them. The gateway writes the registry back to its file after every such change. A shared admin token guards the whole admin surface. The server-level `list_tools`/`call_tool` handlers dispatch between the admin surface and routed tools.
- **The chat client's tool table and routing** (`MCPClient` in `mcp_client/client.py`). The client runs in one of two modes:
  - *single-session mode*: one session, normally to the gateway;
  - *registry mode*: one stdio session per entry of a registry file.

  It converts the listed tools into function specs for the language model and remembers where each name routes. A call goes either through a session or directly to a downstream SSE/streamable-http server, when the gateway's metadata allows that.
- **The notes tool** (`NotesManager` in `mcp_server/tools/notes.py`). This is an in-memory store that names its notes `note-1`, `note-2`, … from a counter.

## How the model is built

- **State.** Every stateful object is an immutable datatype. Every operation is a pure function from state to `(new state, reply)`.
- **Dictionaries.** Python dicts whose iteration order matters are `OMap`s (`ordered_map.dfy`): a key sequence plus a map. These are the registry, the per-server tool lists and the notes. Re-assigning an existing key keeps its position; `del` closes the gap.
- **The outside world** becomes record parameters of functions (oracles):
  - `Protocol.Host`: the interpreter path, the base directory, file existence and path canonicalisation.
  - `Gateway.Peers` holds:
    - what a downstream server lists, or the error it raises, when it is launched or dialled with given parameters;
    - what a routed call returns;
    - whether writing the registry file fails.
  - `Client.Net` is the client's counterpart of `Peers`.
- **Handles.** Sessions, transport contexts and HTTP clients are kept as the sets of server ids that hold one. The client's direct-call handles are keyed by a server key (`Client.ServerKey`): a server id, or Python's `None`.
- **The registry file** is the state field `persisted`: the server list last loaded or written, or `Unreadable`. Only the operations that call `_persist_registry` change it, so "the file agrees with memory" (`Saved`) is a checkable property. A failed write is a message plus whether it failed after `open(..., "w")` had already truncated the file; such a write leaves the file `Unreadable` (`Gateway.AfterFailedWrite`).
- **JSON null versus a missing key.** Where `dict.get` reads both as `None` (`command`, `env`, `url`, `headers`), the field is an `Option`. The keys `type`, `id`, `admin_token` and the metadata's `server_id` behave differently when null and when missing, so they are three-valued (`Protocol.StringField`): a null `type` is the type `None` and is unsupported, a null `id` is no id, and a missing `id` in the file makes start-up raise `KeyError`. The client reads `server_id` with the default `default`, which applies only to a missing key: a null `server_id` is the server key `None`.
- **Reachable states.** The invariant `GatewayInvariants`' `Wf` characterises reachable gateway states, and `Synced` says the catalog is up to date. Notes use `Inv`: ids are `note-<n>` with `n` below the counter, stored in ascending order.

Files and modules:

- `base.dfy` (`Base`): option and result types, strings, and the decimal rendering of naturals. It also holds `Dotted` (`<ns>.<name>`), the last dotted segment, and flattening.
- `ordered_map.dfy` (`OrderedMaps`): the insertion-ordered dictionary.
- `protocol.dfy` (`Protocol`): the data both sides share. This covers tools, routing metadata, registry entries, launch parameters, transport kinds, argument resolution and the route writes of namespacing.
- `gateway.dfy` (`Gateway`): the gateway's operations.
- `gateway_invariants.dfy` (`GatewayInvariants`): the lemmas about the gateway. These are reachability, register and unregister outcomes, start-up, the catalog, and call routing.
- `dispatch.dfy` (`Dispatch`): the module-level admin gate, the `list_tools` handler and the `call_tool` handler.
- `client.dfy` (`Client`) and `client_properties.dfy` (`ClientProperties`): the client, and the lemmas about it.
- `notes.dfy` (`Notes`): the notes manager.

### Surprising behaviour the model keeps

The model follows the code. The following consequences of the code are proved as lemmas and are not repaired. Each names what it works against.

- **Namespaced names can collide.** Ids and tool names may contain dots, so `"a" + "." + "b.c"` equals `"a.b" + "." + "c"`. The server registered later takes the route over (`DottedNamesCollide`, `LaterRegistrationTakesRoute`). This works against the route table's job of sending each published name back to the one server that published it.
- **A failed re-register leaves a stale catalog.** The catalog is not rebuilt on failure, so it still lists the old server's tools while no route leads to that server (`FailedReRegisterLeavesStaleCatalog`). The rollback at mcp_gateway/server.py:240-246 undoes the registry entry only.
- **A failed re-register loses the entry from memory only.** The rollback deletes the entry from memory, while the registry file still holds it, unless a truncating write destroyed the file (`FailedReRegisterForgetsEntry`). The rollback comment at mcp_gateway/server.py:241 promises to undo the new entry; it also drops the old one.
- **Only a failed connect for a new id rolls back exactly** (`FreshFailedConnectIsNoOp`). When the connect succeeds and the registry write fails, the catalog has already been rebuilt. It keeps the new `<id>.<tool>` entries although the rollback removed the id's session and every route to it (`PersistFailureLeavesNewToolsListed`). This too is against the rollback comment at mcp_gateway/server.py:241.
- **A failed registry write can destroy the file.** `open(..., "w")` truncates the file before `json.dump` writes it, so a write that fails part way leaves a file the next start-up cannot load (`Gateway.Unregister`, `GatewayInvariants.RegisterFails`). `_persist_registry` is meant to keep the file in step with memory.
- **A relative stdio argument is rebased.** When it exists relative to the working directory, it is rebased onto the registry's directory anyway (`RelativeArgRebased`). The existence test at mcp_gateway/server.py:87 looks in the working directory, but the rewrite at line 88 does not.
- **The admin token is persisted.** `register_server` stores its arguments dict whole, so an authorised call writes the admin token into the registry file (`AdminTokenIsPersisted`). The token is a secret that guards the admin surface; the registry file is plain configuration.
- **A server with the id `admin` is shadowed.** Its tools fall under the admin surface and can never be called (`AdminIdIsShadowed`). Every other registered server's tools are callable through the gateway.
- **The client reuses a cached direct session.** It does not check the server type again (`DirectSessionReused`). The type check at mcp_client/client.py:335-345 runs only when no direct session is cached.

## Model

| member | source | states |
|---|---|---|
| Base.DottedCancel | mcp_gateway/server.py:136 | Within one server id, two namespaced names are equal exactly when the tool names are equal. |
| Base.LastSegmentIsSuffix | mcp_client/client.py:91 | The fallback original name `split(".")[-1]` is a suffix of the name. It is either the whole name or preceded by a dot. |
| Base.LastSegmentOfDotted | mcp_client/client.py:91 | The last segment of `<ns>.<name>` is `<name>` when the tool name has no dot. |
| Base.LastSegmentOfPlain | mcp_client/client.py:91 | A name without a dot is its own last segment. |
| Base.NatToStringInjective | mcp_server/tools/notes.py:26 | Distinct counter values render as distinct decimal strings. |
| Base.FlattenMember | mcp_gateway/server.py:195-200 | An item is in the concatenation of lists exactly when it is in one of the lists. |
| Base.FlattenAppend | mcp_gateway/server.py:195-200 | Concatenating the lists of two groups is concatenating each group's result. |
| OrderedMaps.Put | mcp_gateway/server.py:232 | `d[k] = v` on an insertion-ordered dict: `k` maps to `v` and the other keys keep their values. An existing key keeps its position and a new key goes last. |
| OrderedMaps.Remove | mcp_gateway/server.py:243-244 | `del d[k]`: `k` is gone and the other keys keep their values and relative order. Deleting an absent key changes nothing. |
| OrderedMaps.Values | mcp_gateway/server.py:50 | `list(d.values())` lists each key's value in key order. |
| OrderedMaps.StoredValueListed | mcp_gateway/server.py:50 | Every stored entry is in the server list written to the file. |
| OrderedMaps.ValuesOfPut | mcp_gateway/server.py:50 | After `d[k] = v`, every listed value is `v` or was listed before. |
| OrderedMaps.ValuesOfRemove | mcp_server/tools/notes.py:48-55 | After `del d[k]`, the values are the former values with the deleted key's value cut out at its position. |
| OrderedMaps.RemoveAfterPutFresh | mcp_gateway/server.py:232-244 | Adding a new key and deleting it again restores the dict exactly, order included. |
| Protocol.ParseKind | mcp_gateway/server.py:76-127 | Only the three type strings `stdio`, `sse` and `streamable-http` name a transport. Any other string names none. |
| Protocol.ResolveArg | mcp_gateway/server.py:85-90 | An argument that names no existing file passes unchanged. An existing absolute path is canonicalised. An existing relative path is canonicalised under the registry directory. |
| Protocol.ResolveArgs | mcp_gateway/server.py:83-90 | Arguments are resolved one by one, in order. |
| Protocol.RelativeArgRebased | mcp_gateway/server.py:87-88 | A relative argument that exists only relative to the working directory is still rebased onto the registry directory. |
| Protocol.Interpreter | mcp_gateway/server.py:77-81 | A missing or empty command, or the literal `python`, becomes the host interpreter. Any other command is kept. |
| Protocol.NamespaceRoutes | mcp_gateway/server.py:134-160 | After the route writes, every listed tool's `<id>.<name>` routes to `(id, name)`. No other new key appears, no old key is lost, and untouched keys keep their targets. |
| Gateway.Validate | mcp_gateway/server.py:69-127 | The entry-checking errors of `_connect_entry`, each with its exact message, in the source's order. Conversely, an entry with an id, a supported type, a command or interpreter for stdio, and an `http` URL otherwise always gets a launch. A valid entry launches as its type says: a stdio spawn with the resolved interpreter, arguments and env, or a network dial with the URL and headers. |
| Gateway.NamespaceTool | mcp_gateway/server.py:136-156 | A republished tool has the name `<id>.<name>`, and its description and input schema are unchanged. Its metadata names the server id, the type, and the original name. For `sse` and `streamable-http` it also carries the URL and allows direct calls; for stdio it carries no URL and forbids them. |
| Gateway.Namespace | mcp_gateway/server.py:134-156 | One republished tool per listed tool, in order, each carrying the server's id and original name. |
| Gateway.ConnectEntry | mcp_gateway/server.py:67-164 | An invalid entry fails with its message and changes nothing. A failed dial leaves at most a partial HTTP client behind. A success adds the session and installs the namespaced tools and routes. The registry, the catalog and the file are never touched. |
| Gateway.Disconnect | mcp_gateway/server.py:167-193 | Drops the id's session, transport, HTTP client and tool list, and exactly the routes that lead to the id. The rest stays as it was. |
| Gateway.Rebuild | mcp_gateway/server.py:195-200 | Only the catalog changes, and afterwards it is current with the per-server lists. |
| Gateway.Startup | mcp_gateway/server.py:202-219 | An empty server list is refused with its message. An entry without an `id` key makes the registry comprehension raise `KeyError('id')`. A completed start-up remembers the file's server list. |
| Gateway.Register | mcp_gateway/server.py:222-226 | A missing or empty id is refused with its message and changes nothing. Every reply is `ok` or `error`. |
| Gateway.Unregister | mcp_gateway/server.py:248-257 | An unknown id is refused with its message and changes nothing. A known id loses its entry, session and routes, and the catalog is rebuilt. Then the file is written, or the write's error propagates and the file is as the failed write left it: unchanged, or unreadable once truncated. |
| Gateway.ListRegistry | mcp_gateway/server.py:259-261 | The registered entries in registration order. In a reachable state, each entry carries the id it is filed under. |
| Gateway.CallTool | mcp_gateway/server.py:263-273 | An unrouted name gives the unknown-tool text, and a route without a session gives the no-session text. Otherwise the server's result is passed on, with empty content replaced by one empty text, or its error propagates. |
| GatewayInvariants.CatalogMember | mcp_gateway/server.py:195-200 | A tool is in the rebuilt catalog exactly when some connected server's list holds it. |
| GatewayInvariants.CatalogOrder | mcp_gateway/server.py:195-200 | A newly connected server's tools come after all earlier servers' tools in the catalog. |
| GatewayInvariants.LiveAfterDisconnect | mcp_gateway/server.py:167-193 | Disconnecting keeps sessions, transports, tool lists and routes consistent with one another. |
| GatewayInvariants.DisconnectUnknownIsNoOp | mcp_gateway/server.py:167-193 | Disconnecting an id that holds nothing changes nothing. |
| GatewayInvariants.DisconnectUnregisteredIsNoOp | mcp_gateway/server.py:167-193 | In a reachable state, disconnecting an unregistered id changes nothing. |
| GatewayInvariants.DisconnectForgetsPartialClient | mcp_gateway/server.py:181-186 | A half-built HTTP client left by a failed connect is removed by the rollback's disconnect, with the same result as if it had never been made. |
| GatewayInvariants.RoutesAfterNamespace | mcp_gateway/server.py:134-160 | After a server's route writes, every route still has the form `<id>.<original>` and leads to a server with a session. |
| GatewayInvariants.LiveAfterInstall | mcp_gateway/server.py:160-164 | Recording a server's session, transport and tools keeps the connection side consistent. |
| GatewayInvariants.LiveAfterConnect | mcp_gateway/server.py:67-164 | A successful connect keeps the connection side consistent and adds exactly the server's session. |
| GatewayInvariants.RecordedLive | mcp_gateway/server.py:228-232 | Before `register_server` connects, the id's old connection and routes are gone and nothing else of the connection side changed. For a new id, only the registry changed. |
| GatewayInvariants.FailedConnectRollsBack | mcp_gateway/server.py:240-246 | When the connect fails, the rollback removes the recorded entry and any partial HTTP client, and replies with the error. |
| GatewayInvariants.RegisterFailedConnect | mcp_gateway/server.py:233-246 | A register whose connect fails ends in the pre-connect state minus the entry, replying with the connect's error. |
| GatewayInvariants.RegisterConnected | mcp_gateway/server.py:233-236 | A register whose connect succeeds reaches, before writing the file, a consistent state. That state has a current catalog, the id's session, the entry in the registry, and the server's namespaced tools and routes. |
| GatewayInvariants.WfAfterRollback | mcp_gateway/server.py:240-246 | The state a failed connect rolls back to is reachable. |
| GatewayInvariants.WfAfterPersistRollback | mcp_gateway/server.py:237-246 | The state a failed registry write rolls back to is reachable. |
| GatewayInvariants.RegisterKeepsWf | mcp_gateway/server.py:222-246 | Every outcome of `register_server` leaves a reachable gateway reachable. |
| GatewayInvariants.RegisterSucceeds | mcp_gateway/server.py:222-239 | A register whose connect and write succeed replies `ok`. It leaves the gateway reachable, with a current catalog and a file equal to the registry. |
| GatewayInvariants.RegisterRecordsEntry | mcp_gateway/server.py:229-232 | A completed register files the entry under its id and keeps the other entries. A re-registered id keeps its slot and a new id is appended. |
| GatewayInvariants.RegisterServesTools | mcp_gateway/server.py:233-236 | A completed register serves the server's namespaced tools, with its list moved to the end of the catalog, and routes each `<id>.<name>` to `(id, name)`. |
| GatewayInvariants.RegisterFails | mcp_gateway/server.py:233-246 | A failed register replies with the failure's message and leaves no registry entry, session or route for the id, and the gateway stays reachable. After a failed connect the file is untouched; after a failed write it is as that write left it, unreadable once truncated. |
| GatewayInvariants.RegisterFailsKeepsOthers | mcp_gateway/server.py:240-246 | A failed register keeps every other entry, and for a new id it keeps the registry and sessions. When a new id's connect fails, the gateway is exactly as before. |
| GatewayInvariants.RolledBackShape | mcp_gateway/server.py:240-246 | Any failed register ends with the entry put and taken out again, and with the id's session gone. |
| GatewayInvariants.RegisterPersistFailed | mcp_gateway/server.py:233-246 | A failed registry write leaves the file as that write left it, then drops the entry, disconnects the just-connected server, and replies with the write's message. |
| GatewayInvariants.FreshFailedConnectIsNoOp | mcp_gateway/server.py:240-246 | For a new id whose connect fails, the rollback restores the gateway exactly. |
| GatewayInvariants.FailedReRegisterForgetsEntry | mcp_gateway/server.py:229-246 | A failed re-register drops the id from memory. The file still lists the old entry, unless a truncating write made it unreadable, so the file no longer matches memory. |
| GatewayInvariants.FailedReRegisterLeavesStaleCatalog | mcp_gateway/server.py:229-246 | A failed re-register leaves the old server's tools in the catalog while no route leads to that server. |
| GatewayInvariants.PersistFailureLeavesNewToolsListed | mcp_gateway/server.py:233-246 | When the connect succeeds and the registry write fails, the rebuilt catalog still serves each of the server's namespaced tools, while the id has no session and no route leads to it. |
| GatewayInvariants.DottedNamesCollide | mcp_gateway/server.py:136 | Different id/tool pairs can publish the same namespaced name. |
| GatewayInvariants.LaterRegistrationTakesRoute | mcp_gateway/server.py:160 | When a newly registered server publishes a name already routed, the route now leads to the new server. |
| GatewayInvariants.UnregisterKeepsWf | mcp_gateway/server.py:248-257 | Unregistering keeps a reachable gateway reachable. |
| GatewayInvariants.UnregisterKeepsOthers | mcp_gateway/server.py:253 | Unregistering keeps the other entries, with their values and in their order. |
| GatewayInvariants.UnregisteredToolsAreUnknown | mcp_gateway/server.py:248-265 | After unregistering, every name that routed to the server is reported as an unknown tool. |
| GatewayInvariants.RoutedNamesReachServer | mcp_gateway/server.py:263-273 | In a reachable gateway every routed name has a session. A routed call therefore never gives the no-session text: it returns the server's result or error. |
| GatewayInvariants.ConnectEachLive | mcp_gateway/server.py:216-217 | The start-up loop keeps the connection side consistent. |
| GatewayInvariants.ConnectEachSessions | mcp_gateway/server.py:216-217 | A completed start-up loop has a session for every entry, and every new session belongs to an entry. |
| GatewayInvariants.BuildRegistryKeys | mcp_gateway/server.py:208 | The registry built from the file has exactly the entries' ids as keys. |
| GatewayInvariants.BuildRegistryIds | mcp_gateway/server.py:208 | The registry built from the file files each entry under its own id. |
| GatewayInvariants.RegistryMatchesSessions | mcp_gateway/server.py:208-217 | When the entries' ids are exactly the session ids, the registry keys are exactly the session ids, and each key is non-empty and names its entry. |
| GatewayInvariants.Initial | mcp_gateway/server.py:208-214 | Start-up begins with the file's registry and nothing connected. |
| GatewayInvariants.StartupSteps | mcp_gateway/server.py:202-219 | A completed start-up connected every entry in order and then rebuilt the catalog. |
| GatewayInvariants.LoopEndWf | mcp_gateway/server.py:208-217 | After the start-up loop the gateway is reachable and every entry is registered. |
| GatewayInvariants.SessionsAreEntries | mcp_gateway/server.py:216-217 | After the start-up loop the sessions are exactly the entries' ids. |
| GatewayInvariants.StartupWf | mcp_gateway/server.py:202-219 | A completed start-up is reachable, serves a current catalog, registers every entry, and remembers the file's server list as written. |
| Dispatch.AdminTools | mcp_gateway/server.py:297-333 | The three admin tools, in listing order, carry the admin names and no routing metadata. |
| Dispatch.StripNullToken | mcp_gateway/server.py:364-366 | A null `admin_token` is dropped, and any other arguments pass unchanged. |
| Dispatch.NullTokenIsNoToken | mcp_gateway/server.py:336-340 | With a null token, an admin call is allowed exactly when no secret is configured. |
| Dispatch.ListTools | mcp_gateway/server.py:343-355 | Before start-up nothing is listed. Afterwards the catalog is listed, followed by the three admin tools. |
| Dispatch.HandleCall | mcp_gateway/server.py:358-389 | Before start-up the not-initialised text. An `admin.` name without the token gives the unauthorised text. Otherwise each admin name runs its operation and renders the result; an unregister with a null `id` is answered as an unknown server `None`, and an unknown admin name gives its text. Every other name is the gateway's routed call, with a raised error shown as `Error: <msg>`. |
| Dispatch.OnlyAuthorisedAdminCallsMutate | mcp_gateway/server.py:368-386 | Only an authorised `admin.register_server` or `admin.unregister_server` call changes the gateway. |
| Dispatch.AdminIdIsShadowed | mcp_gateway/server.py:369-384 | A tool of a server registered as `admin` is answered by the admin surface and never reaches that server. |
| Dispatch.TokenIsNotDialled | mcp_gateway/server.py:67-127 | Connecting an entry does not depend on its admin token. |
| Dispatch.HandleRegister | mcp_gateway/server.py:376-378 | An authorised register call runs `register_server` on the arguments with a null token dropped. |
| Dispatch.AdminTokenIsPersisted | mcp_gateway/server.py:232-237 | A successful authorised register, with a secret configured, writes the secret into the registry file. |
| Dispatch.NullTokenIsNotStored | mcp_gateway/server.py:364-377 | A register call whose token is null stores the entry without the token key. |
| Client.ConvertTools | mcp_client/client.py:176-189 | One function spec per tool, in order, with description and schema kept. The name is namespaced when a non-empty namespace is given. |
| Client.WritesKeys | mcp_client/client.py:86-93 | After writing pairs into a dict, the keys are the old keys and the written keys. |
| Client.WritesLast | mcp_client/client.py:86-93 | When a key is written twice, the last write wins. |
| Client.WritesUntouched | mcp_client/client.py:86-93 | A key no pair writes keeps its value. |
| Client.RouteHints | mcp_client/client.py:86-92 | One route write per listed tool, in listing order. |
| Client.MetaWrites | mcp_client/client.py:164-168 | One metadata write per listed tool, under its (namespaced) name. |
| Client.RouteHint | mcp_client/client.py:88-91 | A listed tool routes to its metadata's server id: `default` when the key is missing and `None` when it is null. Its original name comes from the metadata, else from the name's last dotted segment. |
| Client.ConnectToServer | mcp_client/client.py:52-95 | A failed launch raises its message. A successful one replaces the spec list and both tables with ones built from the listing, opens the session, and leaves the rest alone. |
| Client.RegistryLaunch | mcp_client/client.py:132-149 | A registry entry launches over stdio with the resolved interpreter, the resolved arguments and its env. |
| Client.ConnectRegistryEntry | mcp_client/client.py:123-172 | An entry without an id, or of a type other than stdio, stops the loop with its message and changes nothing. A connected entry appends its namespaced specs, writes its routes and metadata, and adds its session. |
| Client.ConnectToRegistry | mcp_client/client.py:113-122 | An empty server list is refused with its message. Otherwise the direct sessions and the single session are kept. |
| Client.Plan | mcp_client/client.py:191-221 | In registry mode an unknown name is an error. A known name is called directly, at its table's server key under its original name, exactly when the metadata allows it; otherwise it goes to that server's session, or fails with `Server session not found: <key>` when there is none (always for the key `None`). Without any session the call is refused. In single-session mode a direct call goes to the metadata's server key (`default` for a missing `server_id`, `None` for a null one) with the original name from the table, else the name itself; any other call goes out under the full listed name. |
| Client.CallDirect | mcp_client/client.py:325-353 | A missing URL raises. A cached direct session is reused. A type other than `sse`/`streamable-http` raises. A success caches the session. Only the direct-session fields change. |
| Client.ExtractText | mcp_client/client.py:224-227 | Empty content reads as `""`. Otherwise the first item's text is returned, and a non-text first item raises. |
| Client.CallTool | mcp_client/client.py:191-227 | A planning error raises. A call through a session passes on that session's outcome for the routed server and original name, and a single-session call goes out under the name as listed; neither changes the client. A direct call is `_call_direct`'s outcome and client state, its failure raised as is. |
| ClientProperties.ServerTableFromListing | mcp_client/client.py:84-93 | After `connect_to_server`, each listed name routes by its metadata hint and keeps its metadata, the later of two same-named tools winning. |
| ClientProperties.ServerTableKeys | mcp_client/client.py:84-93 | After `connect_to_server`, exactly the listed names are routable. |
| ClientProperties.RegistryEntryTable | mcp_client/client.py:164-168 | Each tool of a connected registry entry is filed under `<id>.<name>`, routes to `(id, name)` and keeps its metadata. |
| ClientProperties.RegistryEntryKeepsSpecsRouted | mcp_client/client.py:159-170 | Connecting one entry keeps every offered function routable. |
| ClientProperties.RegistryEntriesKeepSpecsRouted | mcp_client/client.py:123-172 | The whole loop keeps every offered function routable, even when it stops part way. |
| ClientProperties.RegistryToolsAreRouted | mcp_client/client.py:113-172 | In registry mode every function offered to the model is a name the client can route. |
| ClientProperties.RegistryEntriesKeep | mcp_client/client.py:123-172 | The registry loop only adds: earlier sessions, routes and offered functions stay. |
| ClientProperties.RegistryEntriesConnectAll | mcp_client/client.py:123-172 | A loop that runs to the end has a session for every entry, and its new sessions are entries' ids. |
| ClientProperties.RegistrySessionsAreEntries | mcp_client/client.py:113-172 | A completed registry connect has sessions for exactly the entries' ids. |
| ClientProperties.PlannedDirectPassesChecks | mcp_client/client.py:325-353 | A planned direct call always passes `_call_direct`'s own checks. It either reuses the cached session, or fails only with the transport's own error. |
| ClientProperties.DirectSessionReused | mcp_client/client.py:332-353 | After one direct call to a server succeeds, later direct calls to it reuse the session and change nothing. |
| ClientProperties.NullServerIdKeepsOwnSession | mcp_client/client.py:212-218 | In single-session mode a tool whose metadata has a null `server_id` is called directly under `None` and one without the key under `default`, so a direct session cached for the first is not reused by the second. |
| ClientProperties.RepublishedHint | mcp_gateway/server.py:138-148 | The client's routing hint for a republished tool names the server and tool it came from. The direct-call rule holds exactly for network servers with a URL. |
| ClientProperties.GatewayToolRoutesBack | mcp_client/client.py:209-221 | A gateway tool listed by a single-session client is routed back to its origin. A network server with a URL is called directly. Any other goes through the gateway under the namespaced name. The client's side only: whether the gateway still routes that name depends on its state. |
| ClientProperties.GatewayRoutesBackAfterRegister | mcp_gateway/server.py:229-273 | Right after a completed register, each of the server's tools is listed under `<id>.<name>`, that name routes to `(id, name)`, and a gateway call of it reaches that tool. A failed re-register or write can later leave the name listed with no route. |
| ClientProperties.PlanOfListedTool | mcp_client/client.py:209-221 | The plan for a republished tool in a single-session table: direct for network servers with a URL, otherwise through the gateway. |
| ClientProperties.EmptyFillerIsInvisible | mcp_client/client.py:224-227 | The gateway's filler for empty content reads back as the same text as empty content. |
| Notes.NoteIdInjective | mcp_server/tools/notes.py:26 | Two note ids are equal exactly when their counter values are. |
| Notes.NumberOfNoteId | mcp_server/tools/notes.py:26 | A note id determines the counter value it was made from. |
| Notes.AppendIssued | mcp_server/tools/notes.py:26-36 | Storing the note named by the counter keeps ids numbered below the next counter and in ascending order. |
| Notes.CutIssued | mcp_server/tools/notes.py:55 | Deleting a note keeps the remaining ids numbered and ascending. |
| Notes.UnissuedIdIsAbsent | mcp_server/tools/notes.py:24-36 | No note is stored under the current or any later counter value. |
| Notes.Init | mcp_server/tools/notes.py:20-22 | A new manager is well formed, with no notes and the counter at 1. |
| Notes.CreateNote | mcp_server/tools/notes.py:24-37 | The note is `note-<counter>` with the given fields, the counter moves on, and the note is stored under its id. |
| Notes.GetNote | mcp_server/tools/notes.py:39-44 | Succeeds exactly for a stored id and returns its note. Otherwise fails with the not-found message. |
| Notes.ListNotes | mcp_server/tools/notes.py:46-48 | Lists exactly the stored notes, one per id. |
| Notes.DeleteNote | mcp_server/tools/notes.py:50-59 | Fails with the not-found message exactly for an absent id. Otherwise only that note is gone, the counter is untouched, and the reply names the id. |
| Notes.CreateKeepsInv | mcp_server/tools/notes.py:24-37 | Creating keeps the store well formed, the new id was not in use, and it is appended last. |
| Notes.GetAfterCreate | mcp_server/tools/notes.py:24-44 | Reading back a note just created gives its id, title, content and timestamp. |
| Notes.ListAfterCreate | mcp_server/tools/notes.py:24-48 | A created note is listed last, after the notes that were there. |
| Notes.ListInCreationOrder | mcp_server/tools/notes.py:46-48 | Notes are listed in creation order, each under its own id. |
| Notes.GetNoteResult | mcp_server/tools/notes.py:39-44 | A found note carries the id asked for, and an absent id gives the not-found error. |
| Notes.DeleteKeepsInv | mcp_server/tools/notes.py:50-59 | Deleting keeps the store well formed. |
| Notes.DeleteIsLocal | mcp_server/tools/notes.py:50-59 | After deleting, the id reads as not found, every other note reads back unchanged, and the listing is the old one with that note cut out. |
| Notes.DeleteAbsentFails | mcp_server/tools/notes.py:39-59 | Deleting an absent id fails just as reading it does. |
| Notes.IdsNeverReused | mcp_server/tools/notes.py:26-27 | Over any sequence of calls the store stays well formed. The ids handed out are all distinct, and none of them was ever stored, because deleting never frees an id. |
| Notes.IssuedIdsAreFresh | mcp_server/tools/notes.py:26-27 | Ids numbered on from the counter are all distinct and none is stored. |

## Left out

- Transports and session lifecycles are not modelled: the stdio, SSE and streamable-http clients, the `ClientSession` handshake and `close()`. A downstream server is reduced to the outcome of dialling it: its tool list, or the error it raises.
- Timeouts (`_with_timeout`, `_await_with_timeout`) are not modelled separately: a timeout is a raised error, and that is one of the dial outcomes.
- Reading the registry file (`_load_registry`, the client's registry path lookup and JSON parsing) is not modelled. The server list is a parameter. The file-not-found error and malformed JSON are not modelled.
- Writing the registry file is reduced to the `persisted` field, plus an optional failure of the write: its message and whether the file had already been truncated. Which step fails (creating the directory, opening, dumping) and the JSON layout are not modelled, and a file cut short is not told apart from an empty one.
- Environment variables are parameters: the admin secret is `secret`, and the interpreter path and base directory are fields of `Host`. The debug printing switched on by `MCP_GATEWAY_DEBUG` and all other printing are left out.
- `json.dumps(..., indent=2)` is the `render` parameter of `Dispatch.HandleCall`.
- Process start-up (`run_server`, `main`) is left out. The module-level gateway is an `Option<Gateway>` parameter.
- Concurrency is left out: the asyncio handlers are modelled as if they ran one at a time.
- Tool-call arguments are not passed to the oracles. A call's outcome depends on the target server and tool name only.
- The admin tools' descriptions and input schemas are modelled as text: each schema is the JSON that `json.dumps` gives for its dict with the default separators. How the MCP library serialises a `Tool` on the wire is not modelled.
- The client's language-model side is left out: `_setup_llm_client`, `chat` and the UI. So are the other tool servers (calculator, time utilities, the HTTP server).
- Client.ConnectToServer: a launch that fails part way leaves the source's half-set session and transport attributes behind; the model returns the error and keeps the client unchanged.
- Client.ConnectRegistryEntries: its own contract only frames the fields it keeps. What the loop builds is stated by the `ClientProperties` lemmas.
- Gateway.BuildRegistry: its own contract only states well-formedness. An entry whose `id` is JSON null goes under the key `None` in the source; the model's string-keyed registry skips it, which changes no outcome because start-up then fails on that entry. Its keys and values are stated by `GatewayInvariants.BuildRegistryKeys` and `GatewayInvariants.BuildRegistryIds`.
- Gateway.Register: its own contract states only the missing-id refusal and the reply statuses. Each outcome is stated by the `GatewayInvariants` register lemmas.
- Gateway.Startup: its own contract states the empty-list refusal, the `KeyError` for a missing `id` key, and the remembered file. Reachability and the registry are stated by `GatewayInvariants.StartupWf`.
- Client.ConnectToRegistry: its own contract states the refusal and the kept fields. What it builds is stated by `ClientProperties.RegistryToolsAreRouted` and `ClientProperties.RegistrySessionsAreEntries`.
- Gateway.Install: its own contract only states well-formedness. Its effect is stated through `Gateway.ConnectEntry` and `GatewayInvariants.LiveAfterInstall`.
- Notes.CreateNote: the timestamp `datetime.now().isoformat()` is a parameter. The clock is outside the model.
- File paths follow POSIX: an absolute path starts with `/`, and joining is `base + "/" + arg`. Canonicalisation (`resolve()`) is a `Host` oracle.
- Gateway.Validate and Client.RegistryLaunch: a JSON-null `args` makes the source raise `TypeError` when it iterates the arguments; the model's `args` is a list, so it has no null to tell apart from a missing key, which reads as the empty list.

=== FILE: base.dfy ===
/** Small failure-compatible datatypes and the string helpers the rest of the
    model shares: Python truthiness of optional strings, `str.startswith`,
    `str(n)` for naturals, `s.split(".")[-1]` and list concatenation. */
module Base {

  /** An optional value; `None` stands for a missing key in a Python dict. */
  datatype Option<+T> = None | Some(value: T) {
    /** The value, or `default` when missing (Python `d.get(k, default)`). */
    function GetOr(default: T): T {
      match this
      case Some(v) => v
      case None => default
    }
  }

  /** A value or the message of the exception the source raises instead. */
  datatype Result<+T, +E> = Ok(value: T) | Err(error: E)

  /** Python truthiness of an optional string: present and not empty. */
  predicate Truthy(o: Option<string>) {
    o.Some? && o.value != ""
  }

  /** Python `s.startswith(prefix)`. */
  predicate StartsWith(s: string, prefix: string) {
    |prefix| <= |s| && s[..|prefix|] == prefix
  }

  lemma PrefixedStartsWith(prefix: string, rest: string)
    ensures StartsWith(prefix + rest, prefix)
  {
    assert (prefix + rest)[..|prefix|] == prefix;
  }

  /** The namespaced form `<ns>.<name>` used for tool names. */
  function Dotted(ns: string, name: string): string {
    ns + "." + name
  }

  /** Two dotted names with the same namespace agree exactly when their names do. */
  lemma DottedCancel(ns: string, a: string, b: string)
    ensures Dotted(ns, a) == Dotted(ns, b) <==> a == b
  {
    if Dotted(ns, a) == Dotted(ns, b) {
      var n := |ns| + 1;
      assert a == Dotted(ns, a)[n..];
      assert b == Dotted(ns, b)[n..];
    }
  }

  // ---------------------------------------------------------------------------
  // Decimal rendering of naturals (Python `str(n)` for n >= 0)

  function DigitChar(d: nat): (c: char)
    requires d < 10
    ensures '0' <= c <= '9'
    ensures c as int - '0' as int == d
  {
    (d + '0' as int) as char
  }

  function NatToString(n: nat): (s: string) {
    if n < 10 then [DigitChar(n)] else NatToString(n / 10) + [DigitChar(n % 10)]
  }

  /** The rendering is one digit exactly for a one-digit number, and ends
      with the last decimal digit. */
  lemma NatToStringShape(n: nat)
    ensures |NatToString(n)| >= 1
    ensures n < 10 <==> |NatToString(n)| == 1
    ensures NatToString(n)[|NatToString(n)| - 1] == DigitChar(n % 10)
  {
  }

  /** Distinct naturals render as distinct strings. */
  lemma {:induction false} NatToStringInjective(a: nat, b: nat)
    requires NatToString(a) == NatToString(b)
    ensures a == b
    decreases a
  {
    var s := NatToString(a);
    NatToStringShape(a);
    NatToStringShape(b);
    if a < 10 {
      assert DigitChar(a) == DigitChar(b);
    } else {
      assert s[..|s| - 1] == NatToString(a / 10);
      assert s[..|s| - 1] == NatToString(b / 10);
      NatToStringInjective(a / 10, b / 10);
      assert DigitChar(a % 10) == DigitChar(b % 10);
    }
  }

  /** A fixed prefix followed by distinct naturals gives distinct strings. */
  lemma PrefixedNatInjective(p: string, a: nat, b: nat)
    requires p + NatToString(a) == p + NatToString(b)
    ensures a == b
  {
    assert NatToString(a) == (p + NatToString(a))[|p|..];
    assert NatToString(b) == (p + NatToString(b))[|p|..];
    NatToStringInjective(a, b);
  }

  // ---------------------------------------------------------------------------
  // Python `s.split(".")[-1]`

  /** The text after the last '.' of `s`, or all of `s` when it has none. */
  function LastSegment(s: string): (r: string)
    ensures '.' !in r
  {
    if s == [] then []
    else if s[|s| - 1] == '.' then []
    else LastSegment(s[..|s| - 1]) + [s[|s| - 1]]
  }

  /** The last segment is a suffix of `s`: either all of it, or what follows
      a '.' in it. With `'.' !in r` this makes it the text after the last '.'. */
  lemma {:induction false} LastSegmentIsSuffix(s: string)
    ensures var r := LastSegment(s);
      && |r| <= |s| && r == s[|s| - |r|..]
      && (|r| == |s| || s[|s| - |r| - 1] == '.')
    decreases |s|
  {
    if s != [] && s[|s| - 1] != '.' {
      var t, c := s[..|s| - 1], s[|s| - 1];
      LastSegmentIsSuffix(t);
      var rt, r := LastSegment(t), LastSegment(s);
      assert s == t + [c];
      assert r == rt + [c];
      assert s[|s| - |r|..] == t[|t| - |rt|..] + [c];
      if |rt| < |t| {
        assert s[|s| - |r| - 1] == t[|t| - |rt| - 1];
      }
    }
  }

  /** A string without '.' is its own last segment. */
  lemma LastSegmentOfPlain(s: string)
    requires '.' !in s
    ensures LastSegment(s) == s
  {
    LastSegmentIsSuffix(s);
  }

  /** The last segment of a dotted name whose name part has no dot is that name. */
  lemma {:induction false} LastSegmentOfDotted(ns: string, name: string)
    requires '.' !in name
    ensures LastSegment(Dotted(ns, name)) == name
    decreases |name|
  {
    if name == [] {
    } else {
      var s := Dotted(ns, name);
      assert s[..|s| - 1] == Dotted(ns, name[..|name| - 1]);
      LastSegmentOfDotted(ns, name[..|name| - 1]);
      assert name == name[..|name| - 1] + [name[|name| - 1]];
    }
  }

  // ---------------------------------------------------------------------------
  // List concatenation

  /** `[x for xs in xss for x in xs]`: the lists concatenated in order. */
  function Flatten<T>(xss: seq<seq<T>>): (r: seq<T>)
  {
    if xss == [] then [] else xss[0] + Flatten(xss[1..])
  }

  lemma {:induction false} FlattenAppend<T>(a: seq<seq<T>>, b: seq<seq<T>>)
    ensures Flatten(a + b) == Flatten(a) + Flatten(b)
    decreases |a|
  {
    if a == [] {
      assert a + b == b;
    } else {
      assert (a + b)[1..] == a[1..] + b;
      FlattenAppend(a[1..], b);
    }
  }

  /** An element is in the concatenation exactly when it is in one of the lists. */
  lemma {:induction false} FlattenMember<T>(xss: seq<seq<T>>, x: T)
    ensures x in Flatten(xss) <==> exists i :: 0 <= i < |xss| && x in xss[i]
    decreases |xss|
  {
    if xss != [] {
      FlattenMember(xss[1..], x);
      if x in Flatten(xss[1..]) {
        var i :| 0 <= i < |xss[1..]| && x in xss[1..][i];
        assert x in xss[i + 1];
      }
      if exists i :: 0 <= i < |xss| && x in xss[i] {
        var i :| 0 <= i < |xss| && x in xss[i];
        if i > 0 {
          assert x in xss[1..][i - 1];
        }
      }
    }
  }

  /** The length of the concatenation is the sum of the lengths. */
  function TotalLength<T>(xss: seq<seq<T>>): nat {
    if xss == [] then 0 else |xss[0]| + TotalLength(xss[1..])
  }

  lemma {:induction false} FlattenLength<T>(xss: seq<seq<T>>)
    ensures |Flatten(xss)| == TotalLength(xss)
    decreases |xss|
  {
    if xss != [] {
      FlattenLength(xss[1..]);
    }
  }
}

=== FILE: client.dfy ===
/** The chat client's tool table and call routing (`MCPClient` in
    mcp_client/client.py). The client either holds one session to a server
    (normally the gateway) or one stdio session per registry entry. It turns
    tool descriptors into function specs for the language model, remembers
    where each name routes, and calls a tool either through its session or,
    when the routing metadata allows it, directly on the downstream
    SSE/streamable-http server with a cached direct session. */
module Client {
  import opened Base
  import opened Protocol

  /** The OpenAI function-calling form of a tool. */
  datatype FunctionSpec = FunctionSpec(name: string, description: string, parameters: string)

  /** A server key of the client's tables: a server id, or Python's `None`,
      which `meta.get("server_id", "default")` gives for a JSON-null id. */
  type ServerKey = Option<string>

  /** A `tool_map` value `(server_id, original_name)`. */
  datatype Hint = Hint(serverId: ServerKey, originalName: string)

  /** The client's state; the sets hold the server keys that own a handle. */
  datatype Client = Client(
    session: bool,
    tools: seq<FunctionSpec>,
    sessions: set<string>,
    transports: set<string>,
    toolMap: map<string, Hint>,
    toolMeta: map<string, Meta>,
    directSessions: set<ServerKey>,
    directTransports: set<ServerKey>,
    directHttpClients: set<ServerKey>)

  /** A client with nothing connected. */
  const Fresh: Client := Client(false, [], {}, {}, map[], map[], {}, {}, {})

  /** The outside world as the client sees it: the host, what a stdio server
      lists when launched, whether a direct transport opens (`None`) or fails
      with a message, and what a call returns through each kind of session. */
  datatype Net = Net(
    host: Host,
    dial: Launch -> LinkOutcome,
    openDirect: (Kind, string) -> Option<string>,
    direct: Hint -> CallOutcome,
    viaSession: Target -> CallOutcome,
    viaGateway: string -> CallOutcome)

  // ---------------------------------------------------------------------------
  // Tool conversion and the tables built from a listing

  /** `_convert_tools_for_openai`: one spec per tool, in order, prefixed by the
      namespace when one is given (and not empty). */
  function ConvertTools(ts: seq<Tool>, namespace: Option<string>): (r: seq<FunctionSpec>)
    ensures |r| == |ts|
    ensures forall i :: 0 <= i < |ts| ==>
      && r[i].name == (if Truthy(namespace) then Dotted(namespace.value, ts[i].name) else ts[i].name)
      && r[i].description == ts[i].description
      && r[i].parameters == ts[i].inputSchema
  {
    seq(|ts|, i requires 0 <= i < |ts| =>
      FunctionSpec(if Truthy(namespace) then Dotted(namespace.value, ts[i].name) else ts[i].name,
                   ts[i].description, ts[i].inputSchema))
  }

  /** `d[k] = v` for each pair in order. */
  function Writes<V>(m: map<string, V>, ps: seq<(string, V)>): map<string, V>
    decreases |ps|
  {
    if ps == [] then m else Writes(m, ps[..|ps| - 1])[ps[|ps| - 1].0 := ps[|ps| - 1].1]
  }

  /** The written keys are the old ones and the pairs' keys. */
  lemma {:induction false} WritesKeys<V>(m: map<string, V>, ps: seq<(string, V)>, k: string)
    ensures k in Writes(m, ps) <==> k in m || exists i :: 0 <= i < |ps| && ps[i].0 == k
    decreases |ps|
  {
    if ps != [] {
      var n := |ps| - 1;
      WritesKeys(m, ps[..n], k);
      if exists i :: 0 <= i < n && ps[..n][i].0 == k {
        var i :| 0 <= i < n && ps[..n][i].0 == k;
        assert ps[i].0 == k;
      }
      if exists i :: 0 <= i < |ps| && ps[i].0 == k {
        var i :| 0 <= i < |ps| && ps[i].0 == k;
        if i < n { assert ps[..n][i].0 == k; }
      }
    }
  }

  /** The last write of a key wins. */
  lemma {:induction false} WritesLast<V>(m: map<string, V>, ps: seq<(string, V)>, i: nat)
    requires i < |ps| && forall j :: i < j < |ps| ==> ps[j].0 != ps[i].0
    ensures ps[i].0 in Writes(m, ps) && Writes(m, ps)[ps[i].0] == ps[i].1
    decreases |ps|
  {
    var n := |ps| - 1;
    if i < n {
      assert ps[..n][i] == ps[i];
      forall j | i < j < n ensures ps[..n][j].0 != ps[..n][i].0 {
        assert ps[..n][j] == ps[j];
      }
      WritesLast(m, ps[..n], i);
    }
  }

  /** A key no pair writes keeps its value. */
  lemma {:induction false} WritesUntouched<V>(m: map<string, V>, ps: seq<(string, V)>, k: string)
    requires k in m && forall i :: 0 <= i < |ps| ==> ps[i].0 != k
    ensures k in Writes(m, ps) && Writes(m, ps)[k] == m[k]
    decreases |ps|
  {
    if ps != [] {
      var n := |ps| - 1;
      forall i | 0 <= i < n ensures ps[..n][i].0 != k {
        assert ps[..n][i] == ps[i];
      }
      WritesUntouched(m, ps[..n], k);
    }
  }

  /** The `tool_map` writes of `connect_to_server`, one per listed tool. */
  function RouteHints(ts: seq<Tool>): (ps: seq<(string, Hint)>)
    ensures |ps| == |ts|
    ensures forall i :: 0 <= i < |ts| ==> ps[i] == (ts[i].name, RouteHint(ts[i]))
  {
    seq(|ts|, i requires 0 <= i < |ts| => (ts[i].name, RouteHint(ts[i])))
  }

  /** The `tool_meta` writes: each tool's metadata under its name, namespaced when a namespace is given. */
  function MetaWrites(ts: seq<Tool>, namespace: Option<string>): (ps: seq<(string, Meta)>)
    ensures |ps| == |ts|
    ensures forall i :: 0 <= i < |ts| ==>
      ps[i] == (if namespace.Some? then Dotted(namespace.value, ts[i].name) else ts[i].name, ts[i].meta)
  {
    seq(|ts|, i requires 0 <= i < |ts| =>
      (if namespace.Some? then Dotted(namespace.value, ts[i].name) else ts[i].name, ts[i].meta))
  }

  /** `meta.get("server_id", "default")`: the default only for a missing key. */
  function MetaServerKey(meta: Meta): ServerKey {
    match meta.serverId
    case Absent => Some("default")
    case Null => None
    case Given(s) => Some(s)
  }

  /** Where a single-session client routes a listed tool: the metadata's server
      id (`default` when the key is missing, `None` when it is null) and
      original name (else the last dotted segment). */
  function RouteHint(t: Tool): (r: Hint)
    ensures t.meta.serverId.Given? ==> r.serverId == Some(t.meta.serverId.value)
    ensures t.meta.serverId.Absent? ==> r.serverId == Some("default")
    ensures t.meta.serverId.Null? ==> r.serverId == None
    ensures Truthy(t.meta.originalName) ==> r.originalName == t.meta.originalName.value
    ensures !Truthy(t.meta.originalName) ==> r.originalName == LastSegment(t.name)
  {
    Hint(MetaServerKey(t.meta),
         if Truthy(t.meta.originalName) then t.meta.originalName.value else LastSegment(t.name))
  }

  /** The `tool_map` writes of one registry entry: `<id>.<name> -> (id, name)` per tool. */
  function EntryRoutes(ts: seq<Tool>, sid: string): (ps: seq<(string, Hint)>)
    ensures |ps| == |ts|
    ensures forall i :: 0 <= i < |ts| ==> ps[i] == (Dotted(sid, ts[i].name), Hint(Some(sid), ts[i].name))
  {
    seq(|ts|, i requires 0 <= i < |ts| => (Dotted(sid, ts[i].name), Hint(Some(sid), ts[i].name)))
  }

  // ---------------------------------------------------------------------------
  // Connecting

  /** `connect_to_server`: launch the server script with the interpreter, list
      its tools, and rebuild the tables from the listing. */
  function ConnectToServer(c: Client, script: string, net: Net): (r: Result<Client, string>)
    ensures net.dial(SpawnLaunch(net.host.python, [script], None)).LinkFailed? ==>
      r == Err(net.dial(SpawnLaunch(net.host.python, [script], None)).message)
    ensures r.Ok? ==>
      var ts := net.dial(SpawnLaunch(net.host.python, [script], None)).tools;
      && r.value.session
      && r.value.tools == ConvertTools(ts, None)
      && r.value.toolMap == Writes(map[], RouteHints(ts))
      && r.value.toolMeta == Writes(map[], MetaWrites(ts, None))
      && r.value == c.(session := true, tools := r.value.tools, toolMap := r.value.toolMap, toolMeta := r.value.toolMeta)
  {
    match net.dial(SpawnLaunch(net.host.python, [script], None))
    case LinkFailed(msg) => Err(msg)
    case Linked(ts) =>
      Ok(c.(session := true,
            tools := ConvertTools(ts, None),
            toolMap := Writes(map[], RouteHints(ts)),
            toolMeta := Writes(map[], MetaWrites(ts, None))))
  }

  /** A registry-mode connect either completes or stops at the first entry
      that raises, keeping what the earlier entries added. */
  datatype Progress = Done(client: Client) | Stopped(client: Client, message: string)

  /** The stdio launch of one registry entry. */
  function RegistryLaunch(server: Entry, h: Host): (l: Launch)
    ensures l.SpawnLaunch?
    ensures l.command == Interpreter(server.command, h.python)
    ensures l.args == ResolveArgs(h, server.args) && l.env == server.env
  {
    SpawnLaunch(Interpreter(server.command, h.python), ResolveArgs(h, server.args), server.env)
  }

  /** One iteration of the `connect_to_registry` loop. */
  function ConnectRegistryEntry(c: Client, server: Entry, net: Net): (r: Progress)
    ensures !Truthy(server.id) ==> r == Stopped(c, "Registry server entry missing 'id'")
    ensures Truthy(server.id) && EntryType(server) != "stdio" ==>
      r == Stopped(c, "Unsupported server type: " + EntryType(server))
    ensures r.Stopped? ==> r.client == c
    ensures r.Done? ==>
      && Truthy(server.id) && EntryType(server) == "stdio"
      && net.dial(RegistryLaunch(server, net.host)).Linked?
    ensures r.Done? ==>
      var sid := server.id.value;
      var ts := net.dial(RegistryLaunch(server, net.host)).tools;
      && r.client.toolMap == Writes(c.toolMap, EntryRoutes(ts, sid))
      && r.client.toolMeta == Writes(c.toolMeta, MetaWrites(ts, Some(sid)))
      && r.client.tools == c.tools + ConvertTools(ts, Some(sid))
      && r.client.sessions == c.sessions + {sid}
      && r.client.transports == c.transports + {sid}
      && r.client == c.(toolMap := r.client.toolMap, toolMeta := r.client.toolMeta, tools := r.client.tools,
                        sessions := r.client.sessions, transports := r.client.transports)
  {
    if !Truthy(server.id) then Stopped(c, "Registry server entry missing 'id'")
    else if EntryType(server) != "stdio" then Stopped(c, "Unsupported server type: " + EntryType(server))
    else
      var sid := server.id.value;
      match net.dial(RegistryLaunch(server, net.host))
      case LinkFailed(msg) => Stopped(c, msg)
      case Linked(ts) =>
        Done(c.(toolMap := Writes(c.toolMap, EntryRoutes(ts, sid)),
                toolMeta := Writes(c.toolMeta, MetaWrites(ts, Some(sid))),
                tools := c.tools + ConvertTools(ts, Some(sid)),
                sessions := c.sessions + {sid},
                transports := c.transports + {sid}))
  }

  /** The `connect_to_registry` loop over the entries, in order. */
  function ConnectRegistryEntries(c: Client, servers: seq<Entry>, net: Net): (r: Progress)
    ensures r.client.session == c.session && r.client.directSessions == c.directSessions
    ensures r.client.directTransports == c.directTransports && r.client.directHttpClients == c.directHttpClients
    decreases |servers|
  {
    if servers == [] then Done(c)
    else
      match ConnectRegistryEntry(c, servers[0], net)
      case Stopped(c1, msg) => Stopped(c1, msg)
      case Done(c1) => ConnectRegistryEntries(c1, servers[1..], net)
  }

  /** `connect_to_registry` on an already loaded server list: refuse an empty
      list, clear the tables, then connect every entry. */
  function ConnectToRegistry(c: Client, servers: seq<Entry>, net: Net): (r: Progress)
    ensures servers == [] ==> r == Stopped(c, "Registry has no servers configured")
    ensures servers != [] ==> r.client.directSessions == c.directSessions && r.client.session == c.session
  {
    if servers == [] then Stopped(c, "Registry has no servers configured")
    else
      ConnectRegistryEntries(c.(tools := [], toolMap := map[], sessions := {}, transports := {}, toolMeta := map[]),
                             servers, net)
  }

  // ---------------------------------------------------------------------------
  // Routing a call

  /** Where a call goes: straight to the downstream server, through the
      server's own session (registry mode), or through the single session
      under the name as listed. */
  datatype Route =
    | Direct(serverId: ServerKey, originalName: string, meta: Meta)
    | ViaServer(sessionId: string, originalName: string)
    | ViaGateway(name: string)

  /** The direct-call rule: allowed by the metadata, a network transport, and a URL. */
  predicate DirectOk(meta: Meta) {
    && meta.directCallAllowed == Some(true)
    && meta.serverType.Some? && IsNetworkType(meta.serverType.value)
    && Truthy(meta.serverUrl)
  }

  /** `tool_meta.get(name, {})`. */
  function MetaFor(c: Client, name: string): Meta {
    if name in c.toolMeta then c.toolMeta[name] else NoMeta
  }

  /** The routing decision of `call_tool`, or the error it raises. */
  function Plan(c: Client, name: string): (r: Result<Route, string>)
    ensures c.sessions != {} && name !in c.toolMap ==> r == Err("Tool not found: " + name)
    ensures c.sessions == {} && !c.session ==> r == Err("Not connected to server")
    ensures r.Ok? ==> (r.value.Direct? <==> DirectOk(MetaFor(c, name)))
    ensures r.Ok? && r.value.Direct? ==> r.value.meta == MetaFor(c, name)
    ensures c.sessions != {} && name in c.toolMap && !DirectOk(MetaFor(c, name)) ==>
      var t := c.toolMap[name];
      r == if t.serverId.Some? && t.serverId.value in c.sessions then Ok(ViaServer(t.serverId.value, t.originalName))
           else Err("Server session not found: " + TextOf(t.serverId))
    ensures c.sessions != {} && name in c.toolMap && DirectOk(MetaFor(c, name)) ==>
      r == Ok(Direct(c.toolMap[name].serverId, c.toolMap[name].originalName, MetaFor(c, name)))
    ensures c.sessions == {} && c.session && !DirectOk(MetaFor(c, name)) ==> r == Ok(ViaGateway(name))
    ensures c.sessions == {} && c.session && DirectOk(MetaFor(c, name)) ==>
      r == Ok(Direct(MetaServerKey(MetaFor(c, name)),
                     if name in c.toolMap then c.toolMap[name].originalName else name,
                     MetaFor(c, name)))
  {
    if c.sessions != {} then
      if name !in c.toolMap then Err("Tool not found: " + name)
      else
        var t := c.toolMap[name];
        var meta := MetaFor(c, name);
        if DirectOk(meta) then Ok(Direct(t.serverId, t.originalName, meta))
        else if t.serverId.None? || t.serverId.value !in c.sessions then
          Err("Server session not found: " + TextOf(t.serverId))
        else Ok(ViaServer(t.serverId.value, t.originalName))
    else if !c.session then Err("Not connected to server")
    else
      var meta := MetaFor(c, name);
      var original := if name in c.toolMap then c.toolMap[name].originalName else name;
      if DirectOk(meta) then Ok(Direct(MetaServerKey(meta), original, meta))
      else Ok(ViaGateway(name))
  }

  // ---------------------------------------------------------------------------
  // Direct calls

  /** What a failed call raises: an exception with its message, or reading
      `.text` of a non-text first content item. */
  datatype Failure = Raise(message: string) | NoText

  /** A string or `None` as an f-string shows it. */
  function TextOf(t: Option<string>): string {
    match t
    case Some(s) => s
    case None => "None"
  }

  /** `_call_direct`: reuse the cached direct session of the server or open
      one (an HTTP client is created first for streamable-http), then call. */
  function CallDirect(c: Client, sid: ServerKey, original: string, meta: Meta, net: Net): (r: (Client, Result<CallOutcome, Failure>))
    ensures !Truthy(meta.serverUrl) ==> r == (c, Err(Raise("Direct call requested but server_url missing")))
    ensures Truthy(meta.serverUrl) && sid in c.directSessions ==> r == (c, Ok(net.direct(Hint(sid, original))))
    ensures Truthy(meta.serverUrl) && sid !in c.directSessions && !(meta.serverType.Some? && IsNetworkType(meta.serverType.value)) ==>
      r == (c, Err(Raise("Direct call not supported for server_type=" + TextOf(meta.serverType))))
    ensures r.1.Ok? ==> r.1.value == net.direct(Hint(sid, original)) && sid in r.0.directSessions
    ensures r.0.directSessions == c.directSessions || r.0.directSessions == c.directSessions + {sid}
    ensures r.0 == c.(directSessions := r.0.directSessions, directTransports := r.0.directTransports,
                      directHttpClients := r.0.directHttpClients)
  {
    if !Truthy(meta.serverUrl) then (c, Err(Raise("Direct call requested but server_url missing")))
    else if sid in c.directSessions then (c, Ok(net.direct(Hint(sid, original))))
    else
      var url := meta.serverUrl.value;
      var kind :=
        if meta.serverType == Some("streamable-http") then Some(StreamableHttp)
        else if meta.serverType == Some("sse") then Some(Sse)
        else None;
      match kind
      case None => (c, Err(Raise("Direct call not supported for server_type=" + TextOf(meta.serverType))))
      case Some(k) =>
        var c1 := if k == StreamableHttp then c.(directHttpClients := c.directHttpClients + {sid}) else c;
        match net.openDirect(k, url)
        case Some(msg) => (c1, Err(Raise(msg)))
        case None =>
          var c2 := c1.(directSessions := c1.directSessions + {sid}, directTransports := c1.directTransports + {sid});
          (c2, Ok(net.direct(Hint(sid, original))))
  }

  // ---------------------------------------------------------------------------
  // Calling and extracting the result

  /** The text the client hands back: the first content item's text, `""`
      for empty content, or the failure of reading a non-text item's text. */
  function ExtractText(content: seq<Content>): (r: Result<string, Failure>)
    ensures content == [] ==> r == Ok("")
    ensures content != [] && content[0].Text? ==> r == Ok(content[0].text)
    ensures content != [] && content[0].NonText? ==> r == Err(NoText)
  {
    if content == [] then Ok("")
    else match content[0]
      case Text(t) => Ok(t)
      case NonText(_) => Err(NoText)
  }

  /** The text of a call outcome. */
  function Outcome(o: CallOutcome): Result<string, Failure> {
    match o
    case Raised(msg) => Err(Raise(msg))
    case Returned(content) => ExtractText(content)
  }

  /** `call_tool`: plan, perform, extract. Only a direct call changes the client. */
  function CallTool(c: Client, name: string, net: Net): (r: (Client, Result<string, Failure>))
    ensures Plan(c, name).Err? ==> r == (c, Err(Raise(Plan(c, name).error)))
    ensures Plan(c, name).Ok? && !Plan(c, name).value.Direct? ==> r.0 == c
    ensures Plan(c, name) == Ok(ViaGateway(name)) ==> r.1 == Outcome(net.viaGateway(name))
    ensures Plan(c, name).Ok? && Plan(c, name).value.ViaServer? ==>
      r.1 == Outcome(net.viaSession(Target(Plan(c, name).value.sessionId, Plan(c, name).value.originalName)))
    ensures Plan(c, name).Ok? && Plan(c, name).value.Direct? ==>
      var route := Plan(c, name).value;
      var (c1, out) := CallDirect(c, route.serverId, route.originalName, route.meta, net);
      && r.0 == c1
      && (out.Ok? ==> r.1 == Outcome(out.value))
      && (out.Err? ==> r.1 == Err(out.error))
  {
    match Plan(c, name)
    case Err(msg) => (c, Err(Raise(msg)))
    case Ok(Direct(sid, original, meta)) =>
      var (c1, out) := CallDirect(c, sid, original, meta, net);
      (c1, match out case Ok(o) => Outcome(o) case Err(f) => Err(f))
    case Ok(ViaServer(sid, original)) => (c, Outcome(net.viaSession(Target(sid, original))))
    case Ok(ViaGateway(n)) => (c, Outcome(net.viaGateway(n)))
  }
}

=== FILE: client_properties.dfy ===
/** Properties of the client's tables and routing: what `connect_to_server`
    and `connect_to_registry` record for each listed tool, that every listed
    function name in registry mode is routable, the direct-call rule in
    single-session mode, that a tool republished by the gateway is routed
    back to its own server (and, right after a completed register, that the
    gateway routes it there too), and that direct sessions are opened once. */
module ClientProperties {
  import opened Base
  import opened Protocol
  import opened Client
  import Gateway
  import GatewayInvariants

  // ---------------------------------------------------------------------------
  // Tables

  /** After `connect_to_server`, a listed name routes by its metadata hint and
      keeps its metadata; when a name is listed twice, the later tool wins.
      No other name is known. */
  lemma ServerTableFromListing(c: Client, script: string, net: Net, i: nat)
    requires ConnectToServer(c, script, net).Ok?
    requires var ts := net.dial(SpawnLaunch(net.host.python, [script], None)).tools;
      i < |ts| && forall j :: i < j < |ts| ==> ts[j].name != ts[i].name
    ensures var ts := net.dial(SpawnLaunch(net.host.python, [script], None)).tools;
      var d := ConnectToServer(c, script, net).value;
      && ts[i].name in d.toolMap && d.toolMap[ts[i].name] == RouteHint(ts[i])
      && ts[i].name in d.toolMeta && d.toolMeta[ts[i].name] == ts[i].meta
  {
    var ts := net.dial(SpawnLaunch(net.host.python, [script], None)).tools;
    WritesLast(map[], RouteHints(ts), i);
    WritesLast(map[], MetaWrites(ts, None), i);
  }

  lemma ServerTableKeys(c: Client, script: string, net: Net, name: string)
    requires ConnectToServer(c, script, net).Ok?
    ensures var ts := net.dial(SpawnLaunch(net.host.python, [script], None)).tools;
      var d := ConnectToServer(c, script, net).value;
      (name in d.toolMap <==> exists i :: 0 <= i < |ts| && ts[i].name == name)
  {
    var ts := net.dial(SpawnLaunch(net.host.python, [script], None)).tools;
    WritesKeys(map[], RouteHints(ts), name);
    if exists i :: 0 <= i < |ts| && ts[i].name == name {
      var i :| 0 <= i < |ts| && ts[i].name == name;
      assert RouteHints(ts)[i].0 == name;
    }
  }

  /** After connecting one registry entry, each of its tools is filed under
      `<id>.<name>`, routes to `(id, name)` and keeps its metadata (the later
      of two same-named tools winning). */
  lemma RegistryEntryTable(c: Client, server: Entry, net: Net, i: nat)
    requires ConnectRegistryEntry(c, server, net).Done?
    requires var ts := net.dial(RegistryLaunch(server, net.host)).tools;
      i < |ts| && forall j :: i < j < |ts| ==> ts[j].name != ts[i].name
    ensures var ts := net.dial(RegistryLaunch(server, net.host)).tools;
      var d := ConnectRegistryEntry(c, server, net).client;
      var key := Dotted(server.id.value, ts[i].name);
      && key in d.toolMap && d.toolMap[key] == Hint(Some(server.id.value), ts[i].name)
      && key in d.toolMeta && d.toolMeta[key] == ts[i].meta
  {
    var sid := server.id.value;
    var ts := net.dial(RegistryLaunch(server, net.host)).tools;
    var ps, qs := MetaWrites(ts, Some(sid)), EntryRoutes(ts, sid);
    forall j | i < j < |ps| ensures ps[j].0 != ps[i].0 && qs[j].0 != qs[i].0 {
      DottedCancel(sid, ts[j].name, ts[i].name);
    }
    WritesLast(c.toolMeta, ps, i);
    WritesLast(c.toolMap, qs, i);
  }

  /** Every function spec a registry-mode client lists is a routable name. */
  ghost predicate SpecsRouted(c: Client) {
    forall i :: 0 <= i < |c.tools| ==> c.tools[i].name in c.toolMap
  }

  lemma RegistryEntryKeepsSpecsRouted(c: Client, server: Entry, net: Net)
    requires SpecsRouted(c)
    ensures SpecsRouted(ConnectRegistryEntry(c, server, net).client)
  {
    var r := ConnectRegistryEntry(c, server, net);
    if r.Done? {
      var sid, ts := server.id.value, net.dial(RegistryLaunch(server, net.host)).tools;
      NamespacedNamesRouted(c.toolMap, sid, ts);
      WritesKeepKeys(c.toolMap, EntryRoutes(ts, sid));
      AppendRoutedSpecs(c, r.client, ConvertTools(ts, Some(sid)));
    }
  }

  /** Appending specs whose names are routed, to a table that keeps the old
      routes, keeps every listed name routable. */
  lemma AppendRoutedSpecs(c: Client, d: Client, cs: seq<FunctionSpec>)
    requires SpecsRouted(c)
    requires forall k :: k in c.toolMap ==> k in d.toolMap
    requires forall j :: 0 <= j < |cs| ==> cs[j].name in d.toolMap
    requires d.tools == c.tools + cs
    ensures SpecsRouted(d)
  {
    forall i | 0 <= i < |d.tools| ensures d.tools[i].name in d.toolMap {
      if i < |c.tools| {
        assert d.tools[i] == c.tools[i];
      } else {
        assert d.tools[i] == cs[i - |c.tools|];
      }
    }
  }

  /** Each namespaced spec's name is one of the routes written for it. */
  lemma NamespacedNamesRouted(m: map<string, Hint>, sid: string, ts: seq<Tool>)
    requires Truthy(Some(sid))
    ensures var cs := ConvertTools(ts, Some(sid));
      forall j :: 0 <= j < |cs| ==> cs[j].name in Writes(m, EntryRoutes(ts, sid))
  {
    var cs, ps := ConvertTools(ts, Some(sid)), EntryRoutes(ts, sid);
    forall j | 0 <= j < |cs| ensures cs[j].name in Writes(m, ps) {
      assert ps[j].0 == cs[j].name;
      WritesKeys(m, ps, cs[j].name);
    }
  }

  /** Dict writes never drop a key. */
  lemma WritesKeepKeys<V>(m: map<string, V>, ps: seq<(string, V)>)
    ensures forall k :: k in m ==> k in Writes(m, ps)
  {
    forall k | k in m ensures k in Writes(m, ps) {
      WritesKeys(m, ps, k);
    }
  }

  lemma {:induction false} RegistryEntriesKeepSpecsRouted(c: Client, servers: seq<Entry>, net: Net)
    requires SpecsRouted(c)
    ensures SpecsRouted(ConnectRegistryEntries(c, servers, net).client)
    decreases |servers|
  {
    if servers != [] {
      RegistryEntryKeepsSpecsRouted(c, servers[0], net);
      var r := ConnectRegistryEntry(c, servers[0], net);
      if r.Done? {
        RegistryEntriesKeepSpecsRouted(r.client, servers[1..], net);
      }
    }
  }

  /** In registry mode, every function the model is offered is a name the
      client can route, even when the connect stopped part way. */
  lemma RegistryToolsAreRouted(c: Client, servers: seq<Entry>, net: Net)
    requires servers != []
    ensures SpecsRouted(ConnectToRegistry(c, servers, net).client)
  {
    RegistryEntriesKeepSpecsRouted(
      c.(tools := [], toolMap := map[], sessions := {}, transports := {}, toolMeta := map[]), servers, net);
  }

  /** What a later client keeps of an earlier one in the registry loop:
      its sessions, its routed names and its listed functions, in order. */
  ghost predicate Grows(c: Client, d: Client) {
    && c.sessions <= d.sessions
    && (forall k :: k in c.toolMap ==> k in d.toolMap)
    && c.tools <= d.tools
  }

  lemma RegistryEntryGrows(c: Client, server: Entry, net: Net)
    ensures Grows(c, ConnectRegistryEntry(c, server, net).client)
  {
    if ConnectRegistryEntry(c, server, net).Done? {
      var sid, ts := server.id.value, net.dial(RegistryLaunch(server, net.host)).tools;
      WritesKeepKeys(c.toolMap, EntryRoutes(ts, sid));
    }
  }

  lemma GrowsTransitive(a: Client, b: Client, c: Client)
    requires Grows(a, b) && Grows(b, c)
    ensures Grows(a, c)
  {
  }

  /** The registry loop only adds: sessions, routed names and listed
      functions that were there before stay. */
  lemma {:induction false} RegistryEntriesKeep(c: Client, servers: seq<Entry>, net: Net)
    ensures Grows(c, ConnectRegistryEntries(c, servers, net).client)
    decreases |servers|
  {
    if servers != [] {
      RegistryEntryGrows(c, servers[0], net);
      var r := ConnectRegistryEntry(c, servers[0], net);
      if r.Done? {
        RegistryEntriesKeep(r.client, servers[1..], net);
        GrowsTransitive(c, r.client, ConnectRegistryEntries(r.client, servers[1..], net).client);
      }
    }
  }

  /** A registry loop that runs to the end has a session for every entry,
      and its new sessions are entries' ids. */
  lemma {:induction false} RegistryEntriesConnectAll(c: Client, servers: seq<Entry>, net: Net)
    requires ConnectRegistryEntries(c, servers, net).Done?
    ensures var d := ConnectRegistryEntries(c, servers, net).client;
      && (forall i :: 0 <= i < |servers| ==> Truthy(servers[i].id) && servers[i].id.value in d.sessions)
      && (forall k :: k in d.sessions ==> k in c.sessions || exists i :: 0 <= i < |servers| && servers[i].id == Some(k))
    decreases |servers|
  {
    if servers != [] {
      var c1 := ConnectRegistryEntry(c, servers[0], net).client;
      var rest := servers[1..];
      RegistryEntriesConnectAll(c1, rest, net);
      RegistryEntriesKeep(c1, rest, net);
      var d := ConnectRegistryEntries(c1, rest, net).client;
      forall i | 0 <= i < |servers| ensures Truthy(servers[i].id) && servers[i].id.value in d.sessions {
        if i > 0 { assert servers[i] == rest[i - 1]; }
      }
      forall k | k in d.sessions
        ensures k in c.sessions || exists i :: 0 <= i < |servers| && servers[i].id == Some(k)
      {
        if k !in c1.sessions {
          var j :| 0 <= j < |rest| && rest[j].id == Some(k);
          assert servers[j + 1].id == Some(k);
        } else if k !in c.sessions {
          assert servers[0].id == Some(k);
        }
      }
    }
  }

  /** A registry connect that runs to the end has sessions for exactly the
      entries' ids. */
  lemma RegistrySessionsAreEntries(c: Client, servers: seq<Entry>, net: Net, k: string)
    requires ConnectToRegistry(c, servers, net).Done?
    ensures k in ConnectToRegistry(c, servers, net).client.sessions <==>
      exists i :: 0 <= i < |servers| && servers[i].id == Some(k)
  {
    var c0 := c.(tools := [], toolMap := map[], sessions := {}, transports := {}, toolMeta := map[]);
    RegistryEntriesConnectAll(c0, servers, net);
    if exists i :: 0 <= i < |servers| && servers[i].id == Some(k) {
      var i :| 0 <= i < |servers| && servers[i].id == Some(k);
      assert servers[i].id.value == k;
    }
  }

  // ---------------------------------------------------------------------------
  // Routing

  /** A planned direct call always passes `_call_direct`'s own checks: it
      either reuses the cached session, or opens the transport the metadata
      names and then calls, or fails with the transport's own message. */
  lemma PlannedDirectPassesChecks(c: Client, name: string, net: Net)
    requires Plan(c, name).Ok? && Plan(c, name).value.Direct?
    ensures var Direct(sid, original, meta) := Plan(c, name).value;
      var out := CallDirect(c, sid, original, meta, net).1;
      var kind := ParseKind(meta.serverType.value);
      && kind.Some? && kind.value != Stdio
      && (out == Ok(net.direct(Hint(sid, original)))
          || (sid !in c.directSessions && out == Err(Raise(net.openDirect(kind.value, meta.serverUrl.value).value))))
  {
  }

  /** A direct session is opened at most once per server: once a direct call
      has succeeded, later direct calls to that server (with any metadata that
      has a URL) reuse the session and change nothing. */
  lemma DirectSessionReused(c: Client, sid: ServerKey, original: string, meta: Meta, net: Net,
                            original2: string, meta2: Meta)
    requires CallDirect(c, sid, original, meta, net).1.Ok?
    requires Truthy(meta2.serverUrl)
    ensures var c1 := CallDirect(c, sid, original, meta, net).0;
      CallDirect(c1, sid, original2, meta2, net) == (c1, Ok(net.direct(Hint(sid, original2))))
  {
  }

  /** A JSON-null `server_id` and a missing one are different server keys in
      single-session mode: the first plans a direct call under `None`, the
      second under `default`, so a direct session cached by a call of the
      first is not one the second can reuse. */
  lemma NullServerIdKeepsOwnSession(c: Client, a: string, b: string, net: Net)
    requires c.sessions == {} && c.session
    requires DirectOk(MetaFor(c, a)) && MetaFor(c, a).serverId.Null?
    requires DirectOk(MetaFor(c, b)) && MetaFor(c, b).serverId.Absent?
    requires Some("default") !in c.directSessions
    ensures Plan(c, a).Ok? && Plan(c, a).value.Direct? && Plan(c, a).value.serverId == None
    ensures Plan(c, b).Ok? && Plan(c, b).value.Direct? && Plan(c, b).value.serverId == Some("default")
    ensures var c1 := CallTool(c, a, net).0;
      && Plan(c1, b) == Plan(c, b)
      && Some("default") !in c1.directSessions
  {
  }

  // ---------------------------------------------------------------------------
  // With the gateway

  /** The routing hint of a republished tool names the server and the tool
      it came from (an empty tool name falls back to the last segment of
      `<sid>.`, which is empty too), and the direct-call rule holds exactly for
      network servers with a URL. */
  lemma RepublishedHint(sid: string, kind: Kind, url: Option<string>, raw: Tool)
    ensures var t := Gateway.NamespaceTool(sid, kind, url, raw);
      && RouteHint(t) == Hint(Some(sid), raw.name)
      && (DirectOk(t.meta) <==> kind != Stdio && Truthy(url))
  {
    if raw.name == "" {
      LastSegmentOfDotted(sid, raw.name);
    }
    NetworkKinds(kind);
  }

  /** A tool the gateway republishes, listed by a single-session client, is
      routed back to the server and tool it came from: directly when that
      server is a network server with a URL, and otherwise through the gateway
      under its namespaced name. Whether the gateway still routes that name
      depends on the gateway's state; `GatewayRoutesBackAfterRegister` gives
      the state in which it does. */
  lemma GatewayToolRoutesBack(c: Client, script: string, net: Net, d: Client, i: nat,
                              sid: string, kind: Kind, url: Option<string>, raw: Tool)
    requires c.sessions == {}
    requires ConnectToServer(c, script, net) == Ok(d)
    requires var ts := net.dial(SpawnLaunch(net.host.python, [script], None)).tools;
      && i < |ts| && ts[i] == Gateway.NamespaceTool(sid, kind, url, raw)
      && forall j :: i < j < |ts| ==> ts[j].name != ts[i].name
    ensures Dotted(sid, raw.name) in d.toolMap && d.toolMap[Dotted(sid, raw.name)] == Hint(Some(sid), raw.name)
    ensures kind != Stdio && Truthy(url) ==>
      Plan(d, Dotted(sid, raw.name)) == Ok(Direct(Some(sid), raw.name, Gateway.RoutingMeta(sid, kind, url, raw.name)))
    ensures kind == Stdio || !Truthy(url) ==>
      Plan(d, Dotted(sid, raw.name)) == Ok(ViaGateway(Dotted(sid, raw.name)))
  {
    ServerTableFromListing(c, script, net, i);
    PlanOfListedTool(d, Gateway.NamespaceTool(sid, kind, url, raw), sid, kind, url, raw);
  }

  /** The gateway half of the round trip: right after a completed register,
      each of the server's tools is listed under its namespaced name, that
      name routes to the server and tool it came from, and a call through the
      gateway reaches them. It need not hold later: a failed re-register or a
      failed write leaves such names listed with no route. */
  lemma GatewayRoutesBackAfterRegister(g: Gateway.Gateway, server: Entry, p: Gateway.Peers, i: nat)
    requires Gateway.Wf(g) && Truthy(server.id)
    requires Gateway.Dialled(server, p).Ok? && p.persistError.None?
    requires i < |Gateway.Dialled(server, p).value|
    ensures var h := Gateway.Register(g, server, p).0;
      var sid := server.id.value;
      var raw := Gateway.Dialled(server, p).value[i];
      var name := Dotted(sid, raw.name);
      && Gateway.NamespaceTool(sid, Gateway.LaunchKind(Gateway.Validate(server, p.host).value), server.url, raw) in h.tools
      && name in h.toolMap && h.toolMap[name] == Target(sid, raw.name)
      && match p.invoke(Target(sid, raw.name))
         case Raised(msg) => Gateway.CallTool(h, name, p) == Err(msg)
         case Returned(cs) => Gateway.CallTool(h, name, p) == Ok(if cs == [] then [Text("")] else cs)
  {
    var h := Gateway.Register(g, server, p).0;
    var sid := server.id.value;
    var raw := Gateway.Dialled(server, p).value;
    GatewayInvariants.RegisterServesTools(g, server, p);
    GatewayInvariants.RegisterSucceeds(g, server, p);
    GatewayInvariants.RoutedNamesReachServer(h, Dotted(sid, raw[i].name), p);
  }

  /** The plan for a republished tool recorded in a single-session table. */
  lemma PlanOfListedTool(d: Client, t: Tool, sid: string, kind: Kind, url: Option<string>, raw: Tool)
    requires d.sessions == {} && d.session
    requires t == Gateway.NamespaceTool(sid, kind, url, raw)
    requires t.name in d.toolMap && d.toolMap[t.name] == RouteHint(t)
    requires t.name in d.toolMeta && d.toolMeta[t.name] == t.meta
    ensures d.toolMap[t.name] == Hint(Some(sid), raw.name)
    ensures kind != Stdio && Truthy(url) ==> Plan(d, t.name) == Ok(Direct(Some(sid), raw.name, t.meta))
    ensures kind == Stdio || !Truthy(url) ==> Plan(d, t.name) == Ok(ViaGateway(Dotted(sid, raw.name)))
  {
    RepublishedHint(sid, kind, url, raw);
  }

  /** The gateway fills empty content with one empty text item; the client
      reads that as the empty string, just as it reads empty content. */
  lemma EmptyFillerIsInvisible(content: seq<Content>)
    ensures ExtractText(if content == [] then [Text("")] else content) == ExtractText(content)
  {
  }
}

=== FILE: dispatch.dfy ===
/** The gateway's MCP surface (the `list_tools` and `call_tool` handlers of
    mcp_gateway/server.py): the aggregated catalog plus three admin tools, an
    optional shared-secret check in front of the admin tools, and forwarding
    of every other name to the gateway's router. The process-wide gateway is
    an `Option`, `None` before start-up; the admin secret is the value of the
    `MCP_GATEWAY_ADMIN_TOKEN` environment variable, passed in. */
module Dispatch {
  import opened Base
  import opened OrderedMaps
  import opened Protocol
  import opened Gateway
  import GatewayInvariants

  const AdminPrefix: string := "admin."
  const ListServersName: string := AdminPrefix + "list_servers"
  const RegisterServerName: string := AdminPrefix + "register_server"
  const UnregisterServerName: string := AdminPrefix + "unregister_server"

  /** The admin tool names, in the order they are listed. */
  function AdminNames(): (r: seq<string>)
    ensures |r| == 3
    ensures forall i :: 0 <= i < 3 ==> StartsWith(r[i], AdminPrefix)
  {
    PrefixedStartsWith(AdminPrefix, "list_servers");
    PrefixedStartsWith(AdminPrefix, "register_server");
    PrefixedStartsWith(AdminPrefix, "unregister_server");
    [ListServersName, RegisterServerName, UnregisterServerName]
  }

  // ---------------------------------------------------------------------------
  // The admin tools' input schemas, as the JSON text `json.dumps` gives with
  // its default separators, keys in the order the dicts are written

  function Quoted(s: string): string {
    "\"" + s + "\""
  }

  /** `"k1": v1, "k2": v2, ...` for property names and their JSON schema text. */
  function Members(ps: seq<(string, string)>): string {
    if ps == [] then ""
    else Quoted(ps[0].0) + ": " + ps[0].1 + (if |ps| == 1 then "" else ", " + Members(ps[1..]))
  }

  /** `"a", "b", ...`. */
  function QuotedList(xs: seq<string>): string {
    if xs == [] then ""
    else Quoted(xs[0]) + (if |xs| == 1 then "" else ", " + QuotedList(xs[1..]))
  }

  /** An object schema with the given properties and required keys. */
  function ObjectSchema(ps: seq<(string, string)>, required: seq<string>): string {
    "{\"type\": \"object\", \"properties\": {" + Members(ps) + "}"
      + (if required == [] then "" else ", \"required\": [" + QuotedList(required) + "]") + "}"
  }

  const StringType: string := "{\"type\": \"string\"}"
  const StringMap: string := "{\"type\": \"object\", \"additionalProperties\": " + StringType + "}"

  /** A string property with a `description`. */
  function DescribedString(description: string): string {
    "{\"type\": \"string\", \"description\": " + Quoted(description) + "}"
  }


  function ListServersSchema(): string {
    ObjectSchema([("admin_token", StringType)], [])
  }

  function RegisterServerSchema(): string {
    ObjectSchema(
      [ ("admin_token", StringType),
        ("id", DescribedString("Unique server id")),
        ("type", "{\"type\": \"string\", \"enum\": [\"stdio\", \"sse\", \"streamable-http\"], \"default\": \"stdio\"}"),
        ("command", DescribedString("Command for stdio servers")),
        ("args", "{\"type\": \"array\", \"items\": " + StringType + ", \"description\": " + Quoted("Args for stdio command") + "}"),
        ("env", StringMap),
        ("url", DescribedString("URL for sse/streamable-http")),
        ("headers", StringMap) ],
      ["id"])
  }

  function UnregisterServerSchema(): string {
    ObjectSchema([("admin_token", StringType), ("id", DescribedString("Server id to remove"))], ["id"])
  }

  /** The three admin tools, in the order they are listed, without routing metadata. */
  function AdminTools(): (r: seq<Tool>)
    ensures |r| == 3
    ensures forall i :: 0 <= i < 3 ==> r[i].name == AdminNames()[i] && r[i].meta == NoMeta
  {
    [ Tool(ListServersName, "List registered servers on the gateway", ListServersSchema(), NoMeta),
      Tool(RegisterServerName, "Register or update a downstream MCP server", RegisterServerSchema(), NoMeta),
      Tool(UnregisterServerName, "Unregister a downstream MCP server", UnregisterServerSchema(), NoMeta) ]
  }

  /** `_is_admin_ok`: open when no secret is configured (unset or empty),
      otherwise the call must carry exactly the secret. */
  predicate IsAdminOk(secret: Option<string>, token: StringField) {
    !Truthy(secret) || token == Given(secret.value)
  }

  /** An `admin_token` that is JSON null is dropped from the arguments. */
  function StripNullToken(arguments: Entry): (r: Entry)
    ensures r.adminToken != Null
    ensures r.adminToken.Given? <==> arguments.adminToken.Given?
    ensures arguments.adminToken.Given? ==> r == arguments
    ensures r == arguments.(adminToken := r.adminToken)
  {
    if arguments.adminToken.Null? then arguments.(adminToken := Absent) else arguments
  }

  /** `list_tools`: nothing before start-up, then the catalog followed by the admin tools. */
  function ListTools(gw: Option<Gateway>): (r: seq<Tool>)
    ensures gw.None? ==> r == []
    ensures gw.Some? ==> |r| == |gw.value.tools| + 3
    ensures gw.Some? ==> forall i :: 0 <= i < |gw.value.tools| ==> r[i] == gw.value.tools[i]
    ensures gw.Some? ==> forall i :: 0 <= i < 3 ==> r[|gw.value.tools| + i] == AdminTools()[i]
  {
    match gw
    case None => []
    case Some(g) => g.tools + AdminTools()
  }

  /** What an admin tool returns, before JSON rendering. */
  datatype Doc = ServerList(servers: seq<Entry>) | Status(reply: Reply)

  /** A single text item. */
  function Say(text: string): seq<Content> {
    [Text(text)]
  }

  /** `call_tool`. `render` stands for `json.dumps(..., indent=2)`; an
      exception raised below the handler becomes an `Error: ...` text. An
      unregister whose `id` is JSON null looks up `None`, which no registered
      (string) id equals, so it is answered as an unknown server. */
  function HandleCall(gw: Option<Gateway>, secret: Option<string>, name: string, arguments: Entry,
                      p: Peers, render: Doc -> string): (r: (Option<Gateway>, seq<Content>))
    requires gw.Some? ==> gw.value.registry.Valid() && gw.value.serverTools.Valid()
    ensures r.0.Some? <==> gw.Some?
    ensures r.0.Some? ==> r.0.value.registry.Valid() && r.0.value.serverTools.Valid()
    ensures gw.None? ==> r.1 == Say("Error: gateway not initialized")
    ensures gw.Some? && StartsWith(name, AdminPrefix) && !IsAdminOk(secret, StripNullToken(arguments).adminToken) ==>
      r == (gw, Say("Error: unauthorized"))
    ensures gw.Some? && StartsWith(name, AdminPrefix) && IsAdminOk(secret, StripNullToken(arguments).adminToken) ==>
      if name == ListServersName then r == (gw, Say(render(ServerList(ListRegistry(gw.value)))))
      else if name == RegisterServerName then
        var (h, reply) := Register(gw.value, StripNullToken(arguments), p);
        r == (Some(h), Say(render(Status(reply))))
      else if name == UnregisterServerName && arguments.idField.Null? then
        r == (gw, Say(render(Status(Reply("error", "Server 'None' not found")))))
      else if name == UnregisterServerName then
        var (h, out) := Unregister(gw.value, arguments.id.GetOr(""), p);
        && r.0 == Some(h)
        && (out.Ok? ==> r.1 == Say(render(Status(out.value))))
        && (out.Err? ==> r.1 == Say("Error: " + out.error))
      else r == (gw, Say("Error: unknown admin tool"))
    ensures gw.Some? && !StartsWith(name, AdminPrefix) ==>
      && r.0 == gw
      && match CallTool(gw.value, name, p)
         case Ok(c) => r.1 == c
         case Err(msg) => r.1 == Say("Error: " + msg)
  {
    match gw
    case None => (gw, Say("Error: gateway not initialized"))
    case Some(g) =>
      var args := StripNullToken(arguments);
      if StartsWith(name, AdminPrefix) then
        if !IsAdminOk(secret, args.adminToken) then (gw, Say("Error: unauthorized"))
        else if name == ListServersName then (gw, Say(render(ServerList(ListRegistry(g)))))
        else if name == RegisterServerName then
          var (h, reply) := Register(g, args, p);
          (Some(h), Say(render(Status(reply))))
        else if name == UnregisterServerName && args.idField.Null? then
          (gw, Say(render(Status(Reply("error", "Server 'None' not found")))))
        else if name == UnregisterServerName then
          var (h, out) := Unregister(g, args.id.GetOr(""), p);
          match out
          case Ok(reply) => (Some(h), Say(render(Status(reply))))
          case Err(msg) => (Some(h), Say("Error: " + msg))
        else (gw, Say("Error: unknown admin tool"))
      else
        match CallTool(g, name, p)
        case Ok(c) => (gw, c)
        case Err(msg) => (gw, Say("Error: " + msg))
  }

  // ---------------------------------------------------------------------------
  // Properties

  /** Only an authorised register or unregister call changes the gateway. */
  lemma OnlyAuthorisedAdminCallsMutate(g: Gateway, secret: Option<string>, name: string, arguments: Entry,
                                       p: Peers, render: Doc -> string)
    requires g.registry.Valid() && g.serverTools.Valid()
    requires HandleCall(Some(g), secret, name, arguments, p, render).0 != Some(g)
    ensures StartsWith(name, AdminPrefix)
    ensures IsAdminOk(secret, StripNullToken(arguments).adminToken)
    ensures name == RegisterServerName || name == UnregisterServerName
  {
  }

  /** A downstream server registered under the id `admin` publishes names the
      admin surface captures: calling one of its tools never reaches it. */
  lemma AdminIdIsShadowed(g: Gateway, secret: Option<string>, name: string, arguments: Entry,
                          p: Peers, render: Doc -> string)
    requires Wf(g)
    requires name in g.toolMap && g.toolMap[name].serverId == "admin"
    requires name !in {ListServersName, RegisterServerName, UnregisterServerName}
    ensures HandleCall(Some(g), secret, name, arguments, p, render) == (Some(g), Say("Error: unauthorized"))
         || HandleCall(Some(g), secret, name, arguments, p, render) == (Some(g), Say("Error: unknown admin tool"))
  {
    assert name == Dotted("admin", g.toolMap[name].originalName);
    assert name[..|AdminPrefix|] == AdminPrefix;
  }

  /** A null `admin_token` counts as no token: with a secret configured the
      call is refused, without one it proceeds. */
  lemma NullTokenIsNoToken(secret: Option<string>, arguments: Entry)
    requires arguments.adminToken == Null
    ensures IsAdminOk(secret, StripNullToken(arguments).adminToken) <==> !Truthy(secret)
  {
  }

  /** Connecting an entry does not look at its admin token. */
  lemma TokenIsNotDialled(server: Entry, t: StringField, p: Peers)
    ensures Dialled(server.(adminToken := t), p) == Dialled(server, p)
  {
    var e := server.(adminToken := t);
    assert Validate(e, p.host) == Validate(server, p.host) by {
      assert e.id == server.id && e.kind == server.kind && e.command == server.command;
      assert e.args == server.args && e.env == server.env && e.url == server.url && e.headers == server.headers;
    }
  }

  /** An authorised `admin.register_server` call is `register_server` on the
      arguments with a null token dropped. */
  lemma HandleRegister(g: Gateway, secret: Option<string>, arguments: Entry, p: Peers, render: Doc -> string)
    requires g.registry.Valid() && g.serverTools.Valid()
    requires IsAdminOk(secret, StripNullToken(arguments).adminToken)
    ensures HandleCall(Some(g), secret, RegisterServerName, arguments, p, render).0
         == Some(Register(g, StripNullToken(arguments), p).0)
  {
    PrefixedStartsWith(AdminPrefix, "register_server");
  }

  /** The register arguments are stored whole, so a successful authorised
      register with a secret configured writes the secret into the registry file. */
  lemma AdminTokenIsPersisted(g: Gateway, secret: Option<string>, arguments: Entry, p: Peers, render: Doc -> string)
    requires Wf(g) && Truthy(secret) && arguments.adminToken == Given(secret.value)
    requires Truthy(arguments.id)
    requires Dialled(arguments, p).Ok? && p.persistError.None?
    ensures var file := HandleCall(Some(g), secret, RegisterServerName, arguments, p, render).0.value.persisted;
      file.Listed? && arguments in file.servers
  {
    var h := Register(g, arguments, p).0;
    var sid := arguments.id.value;
    assert HandleCall(Some(g), secret, RegisterServerName, arguments, p, render).0 == Some(h) by {
      HandleRegister(g, secret, arguments, p, render);
    }
    assert h.registry.Valid() && Saved(h) && sid in h.registry.vals && h.registry.vals[sid] == arguments by {
      GatewayInvariants.RegisterSucceeds(g, arguments, p);
      GatewayInvariants.RegisterRecordsEntry(g, arguments, p);
    }
    StoredValueListed(h.registry, sid);
  }

  /** A register call whose token is null stores the entry without the token key. */
  lemma NullTokenIsNotStored(g: Gateway, arguments: Entry, p: Peers, render: Doc -> string)
    requires Wf(g) && arguments.adminToken == Null
    requires Truthy(arguments.id)
    requires Dialled(arguments, p).Ok? && p.persistError.None?
    ensures var h := HandleCall(Some(g), None, RegisterServerName, arguments, p, render).0.value;
      arguments.id.value in h.registry.vals && h.registry.vals[arguments.id.value] == arguments.(adminToken := Absent)
  {
    var args := StripNullToken(arguments);
    var h := Register(g, args, p).0;
    assert HandleCall(Some(g), None, RegisterServerName, arguments, p, render).0 == Some(h) by {
      HandleRegister(g, None, arguments, p, render);
    }
    assert args.id.value in h.registry.vals && h.registry.vals[args.id.value] == args by {
      TokenIsNotDialled(arguments, Absent, p);
      GatewayInvariants.RegisterRecordsEntry(g, args, p);
    }
  }
}

=== FILE: gateway.dfy ===
/** The aggregating gateway (`MCPGateway` in mcp_gateway/server.py) as pure
    state transitions. Each downstream connection is an oracle outcome, and the
    registry file is the `persisted` field, written only where the source
    persists and left unreadable by a write that fails after truncating it.
    Sessions, transport contexts and HTTP clients are opaque handles; the
    model keeps only the ids that hold one. */
module Gateway {
  import opened Base
  import opened OrderedMaps
  import opened Protocol

  /** The gateway's state, one field per attribute of `MCPGateway`, plus the
      contents of the registry file. */
  datatype Gateway = Gateway(
    registry: OMap<string, Entry>,
    sessions: set<string>,
    transports: set<string>,
    httpClients: set<string>,
    serverTools: OMap<string, seq<Tool>>,
    tools: seq<Tool>,
    toolMap: map<string, Target>,
    persisted: RegistryFile)

  /** The registry file: the server list last written (or loaded), or a file
      that a write failing after `open(..., "w")` left empty or cut short. */
  datatype RegistryFile = Listed(servers: seq<Entry>) | Unreadable

  /** A failed `_persist_registry`: its message, and whether it failed after
      opening the file for writing had truncated it (while dumping or closing)
      rather than before (creating the directory or opening the file). */
  datatype WriteFailure = WriteFailure(message: string, truncated: bool)

  /** The registry file after a failed write. */
  function AfterFailedWrite(file: RegistryFile, f: WriteFailure): RegistryFile {
    if f.truncated then Unreadable else file
  }

  /** Everything outside the gateway process: the host file system, what a
      downstream server does when dialled with given launch parameters, what a
      downstream tool call returns, and whether writing the registry file fails. */
  datatype Peers = Peers(
    host: Host,
    dial: Launch -> LinkOutcome,
    invoke: Target -> CallOutcome,
    persistError: Option<WriteFailure>)

  /** `_connect_entry` either completes or raises; a raise may leave a partial
      effect behind (a streamable-http client created before the transport opened). */
  datatype Attempt = Connected(state: Gateway) | Failed(state: Gateway, message: string)

  /** The `{status, message}` dict the admin operations return. */
  datatype Reply = Reply(status: string, message: string)

  // ---------------------------------------------------------------------------
  // Invariants of reachable states

  /** Every routing key is `<sid>.<original>` for the pair it maps to, and that server has a session. */
  ghost predicate RoutesWellFormed(tm: map<string, Target>, sessions: set<string>) {
    forall k :: k in tm ==> k == Dotted(tm[k].serverId, tm[k].originalName) && tm[k].serverId in sessions
  }

  /** Every tool of a server's list carries that server's id and its namespaced name. */
  ghost predicate NamespacedBy(sid: string, ts: seq<Tool>) {
    forall i :: 0 <= i < |ts| ==>
      && ts[i].meta.serverId == Given(sid)
      && ts[i].meta.originalName.Some?
      && ts[i].name == Dotted(sid, ts[i].meta.originalName.value)
  }

  /** The connection side: sessions, transports and tool lists exist for the same ids. */
  ghost predicate Live(g: Gateway) {
    && g.serverTools.Valid()
    && g.sessions == g.serverTools.vals.Keys
    && g.transports == g.sessions
    && g.httpClients <= g.sessions
    && RoutesWellFormed(g.toolMap, g.sessions)
    && (forall sid :: sid in g.serverTools.vals ==> NamespacedBy(sid, g.serverTools.vals[sid]))
  }

  /** A reachable gateway: live connections for exactly the registered ids,
      each registry value being the entry of its own id. */
  ghost predicate Wf(g: Gateway) {
    && Live(g)
    && g.registry.Valid()
    && g.registry.vals.Keys == g.sessions
    && (forall k :: k in g.registry.vals ==> k != "" && g.registry.vals[k].id == Some(k))
  }

  /** The served catalog is current. */
  ghost predicate Synced(g: Gateway)
    requires g.serverTools.Valid()
  {
    g.tools == Catalog(g.serverTools)
  }

  /** The registry file holds the in-memory registry. */
  ghost predicate Saved(g: Gateway)
    requires g.registry.Valid()
  {
    g.persisted == Listed(Values(g.registry))
  }

  // ---------------------------------------------------------------------------
  // Connecting one entry (`_connect_entry`)

  /** The kind of transport a launch opens. */
  function LaunchKind(l: Launch): Kind {
    match l
    case SpawnLaunch(_, _, _) => Stdio
    case SseLaunch(_, _) => Sse
    case HttpLaunch(_, _) => StreamableHttp
  }

  /** Validation and parameter resolution: the launch an entry is dialled
      with, or the `ValueError` raised before any transport is opened. */
  function Validate(server: Entry, h: Host): (r: Result<Launch, string>)
    ensures !Truthy(server.id) ==> r == Err("Registry server entry missing 'id'")
    ensures Truthy(server.id) && ParseKind(EntryType(server)).None? ==>
      r == Err("Unsupported server type: " + EntryType(server))
    ensures Truthy(server.id) && EntryType(server) == "sse" && !UrlOk(server.url) ==>
      r == Err("Server '" + server.id.value + "' missing valid 'url' for SSE")
    ensures Truthy(server.id) && EntryType(server) == "streamable-http" && !UrlOk(server.url) ==>
      r == Err("Server '" + server.id.value + "' missing valid 'url' for streamable-http")
    ensures Truthy(server.id) && EntryType(server) == "stdio" && !Truthy(server.command) && h.python == "" ==>
      r == Err("'command' is required for stdio servers")
    ensures (&& Truthy(server.id) && ParseKind(EntryType(server)).Some?
             && (EntryType(server) == "stdio" ==> Truthy(server.command) || h.python != "")
             && (EntryType(server) != "stdio" ==> UrlOk(server.url))) ==> r.Ok?
    ensures r.Ok? ==> Truthy(server.id) && ParseKind(EntryType(server)) == Some(LaunchKind(r.value))
    ensures r.Ok? && r.value.SpawnLaunch? ==>
      && r.value.command == Interpreter(server.command, h.python)
      && r.value.args == ResolveArgs(h, server.args)
      && r.value.env == server.env
    ensures r.Ok? && !r.value.SpawnLaunch? ==>
      UrlOk(server.url) && r.value.url == server.url.value && r.value.headers == server.headers
  {
    if !Truthy(server.id) then Err("Registry server entry missing 'id'")
    else
      var sid := server.id.value;
      match ParseKind(EntryType(server))
      case None => Err("Unsupported server type: " + EntryType(server))
      case Some(Stdio) =>
        var command := if Truthy(server.command) then server.command.value else h.python;
        if command == "" then Err("'command' is required for stdio servers")
        else Ok(SpawnLaunch(Interpreter(server.command, h.python), ResolveArgs(h, server.args), server.env))
      case Some(Sse) =>
        if !UrlOk(server.url) then Err("Server '" + sid + "' missing valid 'url' for SSE")
        else Ok(SseLaunch(server.url.value, server.headers))
      case Some(StreamableHttp) =>
        if !UrlOk(server.url) then Err("Server '" + sid + "' missing valid 'url' for streamable-http")
        else Ok(HttpLaunch(server.url.value, server.headers))
  }

  /** The routing metadata attached to a namespaced tool. */
  function RoutingMeta(sid: string, kind: Kind, url: Option<string>, original: string): Meta {
    var network := IsNetworkType(KindName(kind));
    Meta(Given(sid), Some(KindName(kind)), Some(original), if network then url else None, Some(network))
  }

  /** A downstream tool as the gateway republishes it. */
  function NamespaceTool(sid: string, kind: Kind, url: Option<string>, t: Tool): (r: Tool)
    ensures r.name == Dotted(sid, t.name)
    ensures r.description == t.description && r.inputSchema == t.inputSchema
    ensures r.meta == Meta(Given(sid), Some(KindName(kind)), Some(t.name),
                           if kind != Stdio then url else None, Some(kind != Stdio))
  {
    Tool(Dotted(sid, t.name), t.description, t.inputSchema, RoutingMeta(sid, kind, url, t.name))
  }

  /** A server's tool list as the gateway republishes it, in the server's order. */
  function Namespace(sid: string, kind: Kind, url: Option<string>, raw: seq<Tool>): (r: seq<Tool>)
    ensures |r| == |raw|
    ensures forall i :: 0 <= i < |raw| ==> r[i] == NamespaceTool(sid, kind, url, raw[i])
    ensures NamespacedBy(sid, r)
  {
    seq(|raw|, i requires 0 <= i < |raw| => NamespaceTool(sid, kind, url, raw[i]))
  }

  /** The bookkeeping after a successful listing: routes, session, transport and tool list. */
  function Install(g: Gateway, sid: string, kind: Kind, url: Option<string>, raw: seq<Tool>): (r: Gateway)
    requires g.serverTools.Valid()
    ensures r.serverTools.Valid()
  {
    g.(toolMap := NamespaceRoutes(g.toolMap, sid, raw),
       sessions := g.sessions + {sid},
       transports := g.transports + {sid},
       serverTools := Put(g.serverTools, sid, Namespace(sid, kind, url, raw)))
  }

  /** `_connect_entry`: validate, dial, then install the namespaced tools. */
  function ConnectEntry(g: Gateway, server: Entry, p: Peers): (r: Attempt)
    requires g.serverTools.Valid()
    ensures r.state.serverTools.Valid()
    ensures r.state.registry == g.registry && r.state.tools == g.tools && r.state.persisted == g.persisted
    ensures Validate(server, p.host).Err? ==> r == Failed(g, Validate(server, p.host).error)
    ensures r.Failed? && Validate(server, p.host).Ok? ==>
      && p.dial(Validate(server, p.host).value) == LinkFailed(r.message)
      && r.state == g.(httpClients := r.state.httpClients)
      && g.httpClients <= r.state.httpClients <= g.httpClients + {server.id.value}
    ensures r.Failed? ==> Dialled(server, p) == Err(r.message)
    ensures r.Connected? ==>
      && Truthy(server.id) && Dialled(server, p).Ok?
      && r.state.sessions == g.sessions + {server.id.value}
      && g.httpClients <= r.state.httpClients <= g.httpClients + {server.id.value}
      && r.state == Install(g.(httpClients := r.state.httpClients), server.id.value,
                            LaunchKind(Validate(server, p.host).value), server.url, Dialled(server, p).value)
  {
    match Validate(server, p.host)
    case Err(msg) => Failed(g, msg)
    case Ok(launch) =>
      var sid := server.id.value;
      var g1 := if launch.HttpLaunch? then g.(httpClients := g.httpClients + {sid}) else g;
      match p.dial(launch)
      case LinkFailed(msg) => Failed(g1, msg)
      case Linked(raw) => Connected(Install(g1, sid, LaunchKind(launch), server.url, raw))
  }

  /** Whether connecting the entry succeeds, and with which tools. */
  function Dialled(server: Entry, p: Peers): Result<seq<Tool>, string> {
    match Validate(server, p.host)
    case Err(msg) => Err(msg)
    case Ok(launch) =>
      match p.dial(launch)
      case LinkFailed(msg) => Err(msg)
      case Linked(raw) => Ok(raw)
  }

  // ---------------------------------------------------------------------------
  // Disconnecting, rebuilding

  /** `_disconnect_entry`: close (errors swallowed) and forget everything of one server. */
  function Disconnect(g: Gateway, sid: string): (r: Gateway)
    requires g.serverTools.Valid()
    ensures r.serverTools.Valid()
    ensures r.sessions == g.sessions - {sid}
    ensures r.transports == g.transports - {sid}
    ensures r.httpClients == g.httpClients - {sid}
    ensures sid !in r.serverTools.vals
    ensures r.serverTools == Remove(g.serverTools, sid)
    ensures forall k :: k in r.toolMap <==> k in g.toolMap && g.toolMap[k].serverId != sid
    ensures forall k :: k in r.toolMap ==> r.toolMap[k] == g.toolMap[k]
    ensures r.registry == g.registry && r.tools == g.tools && r.persisted == g.persisted
  {
    g.(sessions := g.sessions - {sid},
       transports := g.transports - {sid},
       httpClients := g.httpClients - {sid},
       serverTools := Remove(g.serverTools, sid),
       toolMap := map k | k in g.toolMap && g.toolMap[k].serverId != sid :: g.toolMap[k])
  }

  /** The merged catalog: every server's tools, servers in insertion order. */
  function Catalog(st: OMap<string, seq<Tool>>): seq<Tool>
    requires st.Valid()
  {
    Flatten(Values(st))
  }

  /** `_rebuild_tool_list`. */
  function Rebuild(g: Gateway): (r: Gateway)
    requires g.serverTools.Valid()
    ensures r == g.(tools := r.tools)
    ensures Synced(r)
  {
    g.(tools := Catalog(g.serverTools))
  }

  // ---------------------------------------------------------------------------
  // Start-up (`connect`)

  /** `{srv["id"]: srv for srv in servers}` built onto `acc`: the last entry
      of an id wins, in the slot of its first. An entry whose id is JSON null
      goes under the key `None`, which a string-keyed registry has no slot for;
      it is skipped here, and start-up then fails on that entry anyway. */
  function BuildRegistry(acc: OMap<string, Entry>, servers: seq<Entry>): (r: OMap<string, Entry>)
    requires acc.Valid()
    ensures r.Valid()
    decreases |servers|
  {
    if servers == [] then acc
    else if servers[0].id.None? then BuildRegistry(acc, servers[1..])
    else BuildRegistry(Put(acc, servers[0].id.value, servers[0]), servers[1..])
  }

  /** The start-up loop: connect every entry in order, stopping at the first that raises. */
  function ConnectEach(g: Gateway, servers: seq<Entry>, p: Peers): (r: Attempt)
    requires g.serverTools.Valid()
    ensures r.state.serverTools.Valid()
    ensures r.state.registry == g.registry && r.state.persisted == g.persisted
    ensures r.Connected? ==> g.sessions <= r.state.sessions
    decreases |servers|
  {
    if servers == [] then Connected(g)
    else
      match ConnectEntry(g, servers[0], p)
      case Failed(g1, msg) => Failed(g1, msg)
      case Connected(g1) => ConnectEach(g1, servers[1..], p)
  }

  /** `connect`: load the registry file's server list and connect to every
      server; any failure aborts start-up. */
  function Startup(servers: seq<Entry>, p: Peers): (r: Result<Gateway, string>)
    ensures servers == [] ==> r == Err("Registry has no servers configured")
    ensures servers != [] && (exists i :: 0 <= i < |servers| && servers[i].idField.Absent?) ==> r == Err("'id'")
    ensures r.Ok? ==> r.value.persisted == Listed(servers)
  {
    if servers == [] then Err("Registry has no servers configured")
    else if exists i :: 0 <= i < |servers| && servers[i].idField.Absent? then Err("'id'")
    else
      var g0 := Gateway(BuildRegistry(Empty(), servers), {}, {}, {}, Empty(), [], map[], Listed(servers));
      match ConnectEach(g0, servers, p)
      case Failed(_, msg) => Err(msg)
      case Connected(g) => Ok(Rebuild(g))
  }

  // ---------------------------------------------------------------------------
  // Admin operations

  /** The failure branch of `register_server`: drop the registry entry and disconnect. */
  function Rollback(g: Gateway, sid: string, msg: string): (r: (Gateway, Reply))
    requires g.registry.Valid() && g.serverTools.Valid()
  {
    (Disconnect(g.(registry := Remove(g.registry, sid)), sid), Reply("error", msg))
  }

  /** The first steps of `register_server`: disconnect a registered id, then
      record the entry (a new id is appended, a known one keeps its slot). */
  function Recorded(g: Gateway, sid: string, server: Entry): (r: Gateway)
    requires g.registry.Valid() && g.serverTools.Valid()
    ensures r.registry == Put(g.registry, sid, server)
    ensures r.serverTools.Valid()
  {
    var g1 := if sid in g.registry.vals then Disconnect(g, sid) else g;
    g1.(registry := Put(g1.registry, sid, server))
  }

  /** `register_server`: replace any existing connection, record the entry,
      connect, rebuild and persist; roll back on any failure. */
  function Register(g: Gateway, server: Entry, p: Peers): (r: (Gateway, Reply))
    requires g.registry.Valid() && g.serverTools.Valid()
    ensures !Truthy(server.id) ==> r == (g, Reply("error", "Missing required field 'id'"))
    ensures r.0.registry.Valid() && r.0.serverTools.Valid()
    ensures r.1.status == "ok" || r.1.status == "error"
  {
    if !Truthy(server.id) then (g, Reply("error", "Missing required field 'id'"))
    else
      var sid := server.id.value;
      var g2 := Recorded(g, sid, server);
      match ConnectEntry(g2, server, p)
      case Failed(g3, msg) => Rollback(g3, sid, msg)
      case Connected(g3) =>
        var g4 := Rebuild(g3);
        match p.persistError
        case Some(f) => Rollback(g4.(persisted := AfterFailedWrite(g4.persisted, f)), sid, f.message)
        case None => (g4.(persisted := Listed(Values(g4.registry))), Reply("ok", "Registered " + sid))
  }

  /** `unregister_server`; a failing registry write raises after the in-memory change. */
  function Unregister(g: Gateway, sid: string, p: Peers): (r: (Gateway, Result<Reply, string>))
    requires g.registry.Valid() && g.serverTools.Valid()
    ensures sid !in g.registry.vals ==> r == (g, Ok(Reply("error", "Server '" + sid + "' not found")))
    ensures r.0.registry.Valid() && r.0.serverTools.Valid()
    ensures sid in g.registry.vals ==>
      && sid !in r.0.registry.vals
      && sid !in r.0.sessions
      && (forall k :: k in r.0.toolMap ==> r.0.toolMap[k].serverId != sid)
      && Synced(r.0)
      && (p.persistError.None? ==> Saved(r.0) && r.1 == Ok(Reply("ok", "Unregistered " + sid)))
      && (p.persistError.Some? ==>
            r.0.persisted == AfterFailedWrite(g.persisted, p.persistError.value) && r.1 == Err(p.persistError.value.message))
  {
    if sid !in g.registry.vals then (g, Ok(Reply("error", "Server '" + sid + "' not found")))
    else
      var g1 := Rebuild(Disconnect(g.(registry := Remove(g.registry, sid)), sid));
      match p.persistError
      case Some(f) => (g1.(persisted := AfterFailedWrite(g1.persisted, f)), Err(f.message))
      case None => (g1.(persisted := Listed(Values(g1.registry))), Ok(Reply("ok", "Unregistered " + sid)))
  }

  /** `list_registry`: the registry values in insertion order. */
  function ListRegistry(g: Gateway): (r: seq<Entry>)
    requires g.registry.Valid()
    ensures |r| == |g.registry.keys|
    ensures forall i :: 0 <= i < |r| ==> r[i] == g.registry.vals[g.registry.keys[i]]
    ensures Wf(g) ==> forall i :: 0 <= i < |r| ==> r[i].id == Some(g.registry.keys[i])
  {
    Values(g.registry)
  }

  // ---------------------------------------------------------------------------
  // Invocation

  /** `MCPGateway.call_tool`: route a namespaced name to its server, or shape
      the error as text. `Err` is an exception raised by the downstream call. */
  function CallTool(g: Gateway, name: string, p: Peers): (r: Result<seq<Content>, string>)
    ensures name !in g.toolMap ==> r == Ok([Text("Error: Unknown tool '" + name + "'")])
    ensures name in g.toolMap && g.toolMap[name].serverId !in g.sessions ==>
      r == Ok([Text("Error: No session for server '" + g.toolMap[name].serverId + "'")])
    ensures name in g.toolMap && g.toolMap[name].serverId in g.sessions ==>
      match p.invoke(g.toolMap[name])
      case Raised(msg) => r == Err(msg)
      case Returned(c) => r.Ok? && (c == [] ==> r.value == [Text("")]) && (c != [] ==> r.value == c)
  {
    if name !in g.toolMap then Ok([Text("Error: Unknown tool '" + name + "'")])
    else
      var t := g.toolMap[name];
      if t.serverId !in g.sessions then Ok([Text("Error: No session for server '" + t.serverId + "'")])
      else
        match p.invoke(t)
        case Raised(msg) => Err(msg)
        case Returned(c) => Ok(if c == [] then [Text("")] else c)
  }
}

=== FILE: gateway_invariants.dfy ===
/** Properties of the gateway's transitions: the reachable-state invariant
    `Wf` is kept by start-up, register and unregister; disconnect is local;
    register either completes (entry recorded, tools served, file written) or
    leaves no trace of the id; and the quirks of the failure paths. */
module GatewayInvariants {
  import opened Base
  import opened OrderedMaps
  import opened Protocol
  import opened Gateway

  // ---------------------------------------------------------------------------
  // The catalog

  /** A tool is served exactly when some connected server lists it. */
  lemma CatalogMember(st: OMap<string, seq<Tool>>, t: Tool)
    requires st.Valid()
    ensures t in Catalog(st) <==> exists sid :: sid in st.vals && t in st.vals[sid]
  {
    var vs := Values(st);
    FlattenMember(vs, t);
    if exists sid :: sid in st.vals && t in st.vals[sid] {
      var sid :| sid in st.vals && t in st.vals[sid];
      var i :| 0 <= i < |st.keys| && st.keys[i] == sid;
      assert t in vs[i];
    }
  }

  /** The catalog is the server lists one after another, in registration order. */
  lemma CatalogOrder(st: OMap<string, seq<Tool>>, sid: string, ts: seq<Tool>)
    requires st.Valid() && sid !in st.vals
    ensures Catalog(Put(st, sid, ts)) == Catalog(st) + ts
  {
    var r := Put(st, sid, ts);
    assert Values(r) == Values(st) + [ts];
    FlattenAppend(Values(st), [ts]);
    assert Flatten([ts]) == ts + Flatten([]);
  }

  // ---------------------------------------------------------------------------
  // Disconnect

  /** Disconnecting keeps the connection side consistent. */
  lemma LiveAfterDisconnect(g: Gateway, sid: string)
    requires Live(g)
    ensures Live(Disconnect(g, sid))
  {
  }

  /** Disconnecting a server nothing is held for changes nothing. */
  lemma DisconnectUnknownIsNoOp(g: Gateway, sid: string)
    requires g.serverTools.Valid()
    requires sid !in g.sessions && sid !in g.transports && sid !in g.httpClients && sid !in g.serverTools.vals
    requires forall k :: k in g.toolMap ==> g.toolMap[k].serverId != sid
    ensures Disconnect(g, sid) == g
  {
    var r := Disconnect(g, sid);
    assert r.toolMap == g.toolMap;
    assert r.sessions == g.sessions && r.transports == g.transports && r.httpClients == g.httpClients;
  }

  /** In a reachable state, disconnecting an unregistered id is a no-op. */
  lemma DisconnectUnregisteredIsNoOp(g: Gateway, sid: string)
    requires Wf(g) && sid !in g.registry.vals
    ensures Disconnect(g, sid) == g
  {
    DisconnectUnknownIsNoOp(g, sid);
  }

  /** A partial HTTP client of `sid` is forgotten by disconnecting `sid`. */
  lemma DisconnectForgetsPartialClient(a: Gateway, b: Gateway, sid: string)
    requires a.serverTools.Valid()
    requires b == a.(httpClients := b.httpClients) && a.httpClients <= b.httpClients <= a.httpClients + {sid}
    ensures Disconnect(b, sid) == Disconnect(a, sid)
  {
    assert b.httpClients - {sid} == a.httpClients - {sid};
  }

  /** The connection side does not look at the registry. */
  lemma LiveIgnoresRegistry(g: Gateway, R: OMap<string, Entry>)
    ensures Live(g) <==> Live(g.(registry := R))
  {
  }

  lemma LiveIgnoresPersisted(g: Gateway, file: RegistryFile)
    ensures Live(g) <==> Live(g.(persisted := file))
  {
  }

  // ---------------------------------------------------------------------------
  // Connecting one entry

  /** Writing a server's routes keeps every route well formed, the server now having a session. */
  lemma RoutesAfterNamespace(tm: map<string, Target>, sessions: set<string>, sid: string, raw: seq<Tool>)
    requires RoutesWellFormed(tm, sessions)
    ensures RoutesWellFormed(NamespaceRoutes(tm, sid, raw), sessions + {sid})
  {
    var r := NamespaceRoutes(tm, sid, raw);
    forall k | k in r
      ensures k == Dotted(r[k].serverId, r[k].originalName) && r[k].serverId in sessions + {sid}
    {
      if exists i :: 0 <= i < |raw| && k == Dotted(sid, raw[i].name) {
        var i :| 0 <= i < |raw| && k == Dotted(sid, raw[i].name);
        assert r[k] == Target(sid, raw[i].name);
      } else {
        assert r[k] == tm[k];
      }
    }
  }

  /** Installing a server's tools keeps the connection side consistent. */
  lemma LiveAfterInstall(g: Gateway, sid: string, kind: Kind, url: Option<string>, raw: seq<Tool>)
    requires g.serverTools.Valid()
    requires g.sessions == g.serverTools.vals.Keys && g.transports == g.sessions
    requires g.httpClients <= g.sessions + {sid}
    requires RoutesWellFormed(g.toolMap, g.sessions)
    requires forall s :: s in g.serverTools.vals ==> NamespacedBy(s, g.serverTools.vals[s])
    ensures Live(Install(g, sid, kind, url, raw))
  {
    RoutesAfterNamespace(g.toolMap, g.sessions, sid, raw);
  }

  /** A successful connect installs the server's namespaced tools and routes
      and keeps the connection side consistent. */
  lemma LiveAfterConnect(g: Gateway, server: Entry, p: Peers)
    requires Live(g)
    requires ConnectEntry(g, server, p).Connected?
    ensures Live(ConnectEntry(g, server, p).state)
    ensures ConnectEntry(g, server, p).state.sessions == g.sessions + {server.id.value}
  {
    var h := ConnectEntry(g, server, p).state;
    var sid := server.id.value;
    LiveAfterInstall(g.(httpClients := h.httpClients), sid,
      LaunchKind(Validate(server, p.host).value), server.url, Dialled(server, p).value);
  }

  /** Maps with the same membership have the same key set. */
  lemma SameKeys<V>(m: map<string, V>, names: set<string>)
    requires forall k :: k in m <==> k in names
    ensures m.Keys == names
  {
  }

  /** A live state whose registry and sessions both gained the entry's id is
      reachable again. */
  lemma WfAfterPut(g: Gateway, h: Gateway, sid: string, server: Entry)
    requires Wf(g) && Live(h) && h.registry.Valid()
    requires server.id == Some(sid) && sid != ""
    requires h.registry == Put(g.registry, sid, server)
    requires forall k :: k in h.sessions <==> k in g.sessions || k == sid
    ensures Wf(h)
  {
    var R := h.registry;
    forall k | k in R.vals ensures k != "" && R.vals[k].id == Some(k) {
      if k != sid { assert k in g.registry.vals; }
    }
    forall k ensures k in R.vals <==> k in h.sessions {
      assert k in g.registry.vals <==> k in g.sessions;
    }
    SameKeys(R.vals, h.sessions);
  }

  /** A live state whose registry and sessions both lost an id is reachable again. */
  lemma WfAfterCut(g: Gateway, h: Gateway, sid: string)
    requires Wf(g) && Live(h) && h.registry.Valid()
    requires forall k :: k in h.registry.vals <==> k in g.registry.vals && k != sid
    requires forall k :: k in h.registry.vals ==> h.registry.vals[k] == g.registry.vals[k]
    requires forall k :: k in h.sessions <==> k in g.sessions && k != sid
    ensures Wf(h)
  {
    SameKeys(h.registry.vals, h.sessions);
  }

  // ---------------------------------------------------------------------------
  // Register

  /** The state `register_server` connects from: the id's old connection is
      gone, everything else of the connection side is as before. */
  lemma RecordedLive(g: Gateway, server: Entry)
    requires Wf(g) && Truthy(server.id)
    ensures var sid := server.id.value;
      var g2 := Recorded(g, sid, server);
      && Live(g2)
      && g2.sessions == g.sessions - {sid}
      && sid !in g2.serverTools.vals && sid !in g2.httpClients
      && (forall k :: k in g2.toolMap ==> g2.toolMap[k].serverId != sid)
      && g2.tools == g.tools && g2.persisted == g.persisted
      && (sid !in g.registry.vals ==> g2 == g.(registry := g2.registry))
  {
    var sid := server.id.value;
    var g1 := if sid in g.registry.vals then Disconnect(g, sid) else g;
    if sid in g.registry.vals {
      LiveAfterDisconnect(g, sid);
    }
    LiveIgnoresRegistry(g1, Put(g.registry, sid, server));
  }

  /** When the connect fails, the rollback undoes the partial HTTP client and
      the recorded entry, and nothing else. */
  lemma FailedConnectRollsBack(g2: Gateway, g3: Gateway, sid: string, msg: string)
    requires Live(g2) && g2.registry.Valid()
    requires sid !in g2.sessions && sid !in g2.httpClients
    requires forall k :: k in g2.toolMap ==> g2.toolMap[k].serverId != sid
    requires g3 == g2.(httpClients := g3.httpClients) && g2.httpClients <= g3.httpClients <= g2.httpClients + {sid}
    ensures Rollback(g3, sid, msg) == (g2.(registry := Remove(g2.registry, sid)), Reply("error", msg))
  {
    var R := Remove(g2.registry, sid);
    DisconnectForgetsPartialClient(g2.(registry := R), g3.(registry := R), sid);
    DisconnectUnknownIsNoOp(g2.(registry := R), sid);
  }

  /** A register whose connect fails ends in the recorded state minus the entry. */
  lemma RegisterFailedConnect(g: Gateway, server: Entry, p: Peers)
    requires Wf(g) && Truthy(server.id)
    requires Dialled(server, p).Err?
    ensures var sid := server.id.value;
      var g2 := Recorded(g, sid, server);
      Register(g, server, p) == (g2.(registry := Remove(g2.registry, sid)), Reply("error", Dialled(server, p).error))
  {
    var sid := server.id.value;
    var g2 := Recorded(g, sid, server);
    RecordedLive(g, server);
    var a := ConnectEntry(g2, server, p);
    FailedConnectRollsBack(g2, a.state, sid, a.message);
  }

  /** A register whose connect succeeds reaches, before persisting, a live state
      serving the new tools. */
  lemma RegisterConnected(g: Gateway, server: Entry, p: Peers)
    requires Wf(g) && Truthy(server.id)
    requires Dialled(server, p).Ok?
    ensures var sid := server.id.value;
      var g2 := Recorded(g, sid, server);
      var g4 := Rebuild(ConnectEntry(g2, server, p).state);
      var ns := Namespace(sid, LaunchKind(Validate(server, p.host).value), server.url, Dialled(server, p).value);
      && ConnectEntry(g2, server, p).Connected?
      && Live(g4) && Synced(g4)
      && g4.sessions == g.sessions + {sid}
      && g4.registry == Put(g.registry, sid, server)
      && g4.persisted == g.persisted
      && g4.serverTools == Put(g2.serverTools, sid, ns)
      && sid !in g2.serverTools.vals
      && g4.toolMap == NamespaceRoutes(g2.toolMap, sid, Dialled(server, p).value)
  {
    var sid := server.id.value;
    var g2 := Recorded(g, sid, server);
    var a := ConnectEntry(g2, server, p);
    assert a.Connected?;
    RecordedLive(g, server);
    LiveAfterConnect(g2, server, p);
    var kind := LaunchKind(Validate(server, p.host).value);
    assert a.state == Install(g2.(httpClients := a.state.httpClients), sid, kind, server.url, Dialled(server, p).value);
  }

  /** The state a failed connect rolls back to is reachable. */
  lemma WfAfterRollback(g: Gateway, server: Entry)
    requires Wf(g) && Truthy(server.id)
    ensures var sid := server.id.value;
      var g2 := Recorded(g, sid, server);
      Wf(g2.(registry := Remove(g2.registry, sid)))
  {
    var sid := server.id.value;
    var g2 := Recorded(g, sid, server);
    var h := g2.(registry := Remove(g2.registry, sid));
    assert Live(h) by {
      RecordedLive(g, server);
      LiveIgnoresRegistry(g2, h.registry);
    }
    assert forall k :: k in h.sessions <==> k in g.sessions && k != sid by {
      RecordedLive(g, server);
    }
    RegistryCut(g.registry, sid, server);
    WfAfterCut(g, h, sid);
  }

  /** The state a failed registry write rolls back to is reachable. */
  lemma WfAfterPersistRollback(g: Gateway, server: Entry, p: Peers)
    requires Wf(g) && Truthy(server.id) && Dialled(server, p).Ok? && p.persistError.Some?
    ensures var sid := server.id.value;
      var g4 := Rebuild(ConnectEntry(Recorded(g, sid, server), server, p).state);
      var g5 := g4.(persisted := AfterFailedWrite(g4.persisted, p.persistError.value));
      Wf(Disconnect(g5.(registry := Remove(g5.registry, sid)), sid))
  {
    var sid := server.id.value;
    RegisterConnected(g, server, p);
    var g4 := Rebuild(ConnectEntry(Recorded(g, sid, server), server, p).state);
    var g5 := g4.(persisted := AfterFailedWrite(g4.persisted, p.persistError.value));
    LiveIgnoresPersisted(g4, g5.persisted);
    CutAfterConnected(g, g5, sid, server);
  }

  /** Dropping the just-connected id again, registry entry and connection. */
  lemma CutAfterConnected(g: Gateway, g4: Gateway, sid: string, server: Entry)
    requires Wf(g) && Live(g4) && g4.registry == Put(g.registry, sid, server)
    requires g4.sessions == g.sessions + {sid}
    ensures Wf(Disconnect(g4.(registry := Remove(g4.registry, sid)), sid))
  {
    var g5 := g4.(registry := Remove(g4.registry, sid));
    var h := Disconnect(g5, sid);
    assert Live(h) by {
      LiveIgnoresRegistry(g4, g5.registry);
      LiveAfterDisconnect(g5, sid);
    }
    RegistryCut(g.registry, sid, server);
    assert forall k :: k in h.sessions <==> k in g.sessions && k != sid;
    WfAfterCut(g, h, sid);
  }

  /** Putting an entry and removing it again leaves the other entries. */
  lemma RegistryCut(R0: OMap<string, Entry>, sid: string, server: Entry)
    requires R0.Valid()
    ensures var R := Remove(Put(R0, sid, server), sid);
      && (forall k :: k in R.vals <==> k in R0.vals && k != sid)
      && (forall k :: k in R.vals ==> R.vals[k] == R0.vals[k])
  {
  }

  /** The state a completed register ends in is reachable. */
  lemma WfAfterRegistered(g: Gateway, server: Entry, p: Peers)
    requires Wf(g) && Truthy(server.id) && Dialled(server, p).Ok?
    ensures var sid := server.id.value;
      var g4 := Rebuild(ConnectEntry(Recorded(g, sid, server), server, p).state);
      Wf(g4.(persisted := Listed(Values(g4.registry))))
  {
    var sid := server.id.value;
    RegisterConnected(g, server, p);
    var g4 := Rebuild(ConnectEntry(Recorded(g, sid, server), server, p).state);
    PutAfterConnected(g, g4, sid, server, Listed(Values(g4.registry)));
  }

  /** Keeping the just-connected id, whatever the registry file then holds. */
  lemma PutAfterConnected(g: Gateway, g4: Gateway, sid: string, server: Entry, file: RegistryFile)
    requires Wf(g) && Live(g4) && g4.registry == Put(g.registry, sid, server)
    requires g4.sessions == g.sessions + {sid}
    requires server.id == Some(sid) && sid != ""
    ensures Wf(g4.(persisted := file))
  {
    var h := g4.(persisted := file);
    LiveIgnoresPersisted(g4, file);
    assert forall k :: k in h.sessions <==> k in g.sessions || k == sid;
    WfAfterPut(g, h, sid, server);
  }

  /** `register_server` keeps a reachable gateway reachable. */
  lemma RegisterKeepsWf(g: Gateway, server: Entry, p: Peers)
    requires Wf(g)
    ensures Wf(Register(g, server, p).0)
  {
    if Truthy(server.id) {
      if Dialled(server, p).Err? {
        RegisterFailedConnect(g, server, p);
        WfAfterRollback(g, server);
      } else {
        RegisterConnected(g, server, p);
        if p.persistError.Some? {
          WfAfterPersistRollback(g, server, p);
        } else {
          WfAfterRegistered(g, server, p);
        }
      }
    }
  }

  /** What a completed register returns. */
  lemma RegisterOkResult(g: Gateway, server: Entry, p: Peers)
    requires Wf(g) && Truthy(server.id)
    requires Dialled(server, p).Ok? && p.persistError.None?
    ensures var sid := server.id.value;
      var g4 := Rebuild(ConnectEntry(Recorded(g, sid, server), server, p).state);
      Register(g, server, p) == (g4.(persisted := Listed(Values(g4.registry))), Reply("ok", "Registered " + server.id.value))
  {
    RegisterConnected(g, server, p);
  }

  /** A register whose connect and registry write succeed replies "ok" and
      leaves the gateway reachable, with a current catalog and a registry file
      equal to the registry. */
  lemma RegisterSucceeds(g: Gateway, server: Entry, p: Peers)
    requires Wf(g) && Truthy(server.id)
    requires Dialled(server, p).Ok? && p.persistError.None?
    ensures var (h, reply) := Register(g, server, p);
      && reply == Reply("ok", "Registered " + server.id.value)
      && Wf(h) && Synced(h) && Saved(h)
  {
    RegisterOkResult(g, server, p);
    RegisterConnected(g, server, p);
    WfAfterRegistered(g, server, p);
  }

  /** A completed register records the entry under its id, keeps the other
      entries, and keeps a re-registered id in its registry slot (a new id is
      appended). */
  lemma RegisterRecordsEntry(g: Gateway, server: Entry, p: Peers)
    requires Wf(g) && Truthy(server.id)
    requires Dialled(server, p).Ok? && p.persistError.None?
    ensures var h := Register(g, server, p).0;
      var sid := server.id.value;
      && sid in h.registry.vals && h.registry.vals[sid] == server
      && (forall k :: k in g.registry.vals && k != sid ==> k in h.registry.vals && h.registry.vals[k] == g.registry.vals[k])
      && (sid in g.registry.vals ==> h.registry.keys == g.registry.keys)
      && (sid !in g.registry.vals ==> h.registry.keys == g.registry.keys + [sid])
  {
    RegisteredRegistry(g, server, p);
    PutRecords(g.registry, Register(g, server, p).0.registry, server.id.value, server);
  }

  /** What `d[sid] = server` does to an ordered registry. */
  lemma PutRecords(R0: OMap<string, Entry>, R: OMap<string, Entry>, sid: string, server: Entry)
    requires R0.Valid() && R == Put(R0, sid, server)
    ensures sid in R.vals && R.vals[sid] == server
    ensures forall k :: k in R0.vals && k != sid ==> k in R.vals && R.vals[k] == R0.vals[k]
    ensures sid in R0.vals ==> R.keys == R0.keys
    ensures sid !in R0.vals ==> R.keys == R0.keys + [sid]
  {
  }

  lemma RegisteredRegistry(g: Gateway, server: Entry, p: Peers)
    requires Wf(g) && Truthy(server.id)
    requires Dialled(server, p).Ok? && p.persistError.None?
    ensures Register(g, server, p).0.registry == Put(g.registry, server.id.value, server)
  {
    RegisterOkResult(g, server, p);
    RegisterConnected(g, server, p);
  }

  /** A completed register serves the server's namespaced tools, its tool list
      moved to the end of the catalog, with a route for each of them. */
  lemma RegisterServesTools(g: Gateway, server: Entry, p: Peers)
    requires Wf(g) && Truthy(server.id)
    requires Dialled(server, p).Ok? && p.persistError.None?
    ensures var h := Register(g, server, p).0;
      var sid := server.id.value;
      var raw := Dialled(server, p).value;
      var ns := Namespace(sid, LaunchKind(Validate(server, p.host).value), server.url, raw);
      && h.serverTools.keys[|h.serverTools.keys| - 1] == sid
      && h.serverTools.vals[sid] == ns
      && (forall t :: t in ns ==> t in h.tools)
      && (forall i :: 0 <= i < |raw| ==>
            Dotted(sid, raw[i].name) in h.toolMap && h.toolMap[Dotted(sid, raw[i].name)] == Target(sid, raw[i].name))
  {
    RegisterOkResult(g, server, p);
    RegisterConnected(g, server, p);
    var sid := server.id.value;
    var g4 := Rebuild(ConnectEntry(Recorded(g, sid, server), server, p).state);
    var ns := Namespace(sid, LaunchKind(Validate(server, p.host).value), server.url, Dialled(server, p).value);
    forall t | t in ns ensures t in g4.tools {
      CatalogMember(g4.serverTools, t);
    }
  }

  /** The message of a failed register: the connect's error, else the write's. */
  function FailureMessage(server: Entry, p: Peers): string
    requires Dialled(server, p).Err? || p.persistError.Some?
  {
    if Dialled(server, p).Err? then Dialled(server, p).error else p.persistError.value.message
  }

  /** A register that fails replies with the failure's message and leaves no
      trace of the id: not registered, no session, no route, and the gateway
      stays reachable. A failed connect leaves the registry file untouched; a
      failed write leaves it as that write left it (unreadable once truncated). */
  lemma RegisterFails(g: Gateway, server: Entry, p: Peers)
    requires Wf(g) && Truthy(server.id)
    requires Dialled(server, p).Err? || p.persistError.Some?
    ensures var (h, reply) := Register(g, server, p);
      var sid := server.id.value;
      && reply == Reply("error", FailureMessage(server, p))
      && Wf(h)
      && sid !in h.registry.vals && sid !in h.sessions
      && (forall k :: k in h.toolMap ==> h.toolMap[k].serverId != sid)
      && (Dialled(server, p).Err? ==> h.persisted == g.persisted)
      && (Dialled(server, p).Ok? ==> h.persisted == AfterFailedWrite(g.persisted, p.persistError.value))
  {
    RegisterKeepsWf(g, server, p);
  }

  /** A failed register keeps every other entry; for a new id it leaves the
      registry and the sessions as they were, and when the new id's connect
      fails the gateway is exactly as before (the catalog is not rebuilt). */
  lemma RegisterFailsKeepsOthers(g: Gateway, server: Entry, p: Peers)
    requires Wf(g) && Truthy(server.id)
    requires Dialled(server, p).Err? || p.persistError.Some?
    ensures var h := Register(g, server, p).0;
      var sid := server.id.value;
      && (forall k :: k in g.registry.vals && k != sid ==> k in h.registry.vals && h.registry.vals[k] == g.registry.vals[k])
      && (sid !in g.registry.vals ==> h.registry == g.registry && h.sessions == g.sessions)
      && (sid !in g.registry.vals && Dialled(server, p).Err? ==> h == g)
  {
    var sid := server.id.value;
    var h := Register(g, server, p).0;
    assert h.registry == Remove(Put(g.registry, sid, server), sid) && h.sessions == g.sessions - {sid} by {
      RolledBackShape(g, server, p);
    }
    RegistryCut(g.registry, sid, server);
    if sid !in g.registry.vals {
      RemoveAfterPutFresh(g.registry, sid, server);
      if Dialled(server, p).Err? {
        assert h == g by {
          FreshFailedConnectIsNoOp(g, server, p);
        }
      }
    }
  }

  /** Where a failed register leaves the registry and the sessions: the
      entry put and taken out again, and the id's connection gone. */
  lemma RolledBackShape(g: Gateway, server: Entry, p: Peers)
    requires Wf(g) && Truthy(server.id)
    requires Dialled(server, p).Err? || p.persistError.Some?
    ensures var h := Register(g, server, p).0;
      var sid := server.id.value;
      && h.registry == Remove(Put(g.registry, sid, server), sid)
      && h.sessions == g.sessions - {sid}
  {
    if Dialled(server, p).Err? {
      ConnectRolledBack(g, server, p);
    } else {
      PersistRolledBack(g, server, p);
    }
  }

  lemma ConnectRolledBack(g: Gateway, server: Entry, p: Peers)
    requires Wf(g) && Truthy(server.id) && Dialled(server, p).Err?
    ensures var h := Register(g, server, p).0;
      var sid := server.id.value;
      && h.registry == Remove(Put(g.registry, sid, server), sid)
      && h.sessions == g.sessions - {sid}
  {
    RegisterFailedConnect(g, server, p);
    RecordedLive(g, server);
  }

  lemma PersistRolledBack(g: Gateway, server: Entry, p: Peers)
    requires Wf(g) && Truthy(server.id) && Dialled(server, p).Ok? && p.persistError.Some?
    ensures var h := Register(g, server, p).0;
      var sid := server.id.value;
      && h.registry == Remove(Put(g.registry, sid, server), sid)
      && h.sessions == g.sessions - {sid}
  {
    var sid := server.id.value;
    var g4 := Rebuild(ConnectEntry(Recorded(g, sid, server), server, p).state);
    var g5 := g4.(persisted := AfterFailedWrite(g4.persisted, p.persistError.value));
    assert Register(g, server, p).0 == Disconnect(g5.(registry := Remove(g5.registry, sid)), sid) by {
      RegisterPersistFailed(g, server, p);
    }
    assert g5.registry == Put(g.registry, sid, server) && g5.sessions == g.sessions + {sid} by {
      RegisterConnected(g, server, p);
    }
    DisconnectAfterPut(g, g5, sid, server);
  }

  /** Taking a just-added id out again, registry entry and connection. */
  lemma DisconnectAfterPut(g: Gateway, g4: Gateway, sid: string, server: Entry)
    requires g.registry.Valid() && g4.serverTools.Valid()
    requires g4.registry == Put(g.registry, sid, server) && g4.sessions == g.sessions + {sid}
    ensures var h := Disconnect(g4.(registry := Remove(g4.registry, sid)), sid);
      h.registry == Remove(Put(g.registry, sid, server), sid) && h.sessions == g.sessions - {sid}
  {
  }

  /** A register whose registry write fails rolls back from the connected state. */
  lemma RegisterPersistFailed(g: Gateway, server: Entry, p: Peers)
    requires Wf(g) && Truthy(server.id)
    requires Dialled(server, p).Ok? && p.persistError.Some?
    ensures var sid := server.id.value;
      var g4 := Rebuild(ConnectEntry(Recorded(g, sid, server), server, p).state);
      var f := p.persistError.value;
      var g5 := g4.(persisted := AfterFailedWrite(g4.persisted, f));
      Register(g, server, p) == (Disconnect(g5.(registry := Remove(g5.registry, sid)), sid), Reply("error", f.message))
  {
    RegisterConnected(g, server, p);
  }

  /** A new id whose connect fails: the rollback restores the gateway exactly. */
  lemma FreshFailedConnectIsNoOp(g: Gateway, server: Entry, p: Peers)
    requires Wf(g) && Truthy(server.id) && server.id.value !in g.registry.vals
    requires Dialled(server, p).Err?
    ensures Register(g, server, p).0 == g
  {
    var sid := server.id.value;
    RemoveAfterPutFresh(g.registry, sid, server);
    var g2 := g.(registry := Put(g.registry, sid, server));
    var g3 := ConnectEntry(g2, server, p).state;
    var R := Remove(g2.registry, sid);
    DisconnectForgetsPartialClient(g2.(registry := R), g3.(registry := R), sid);
    assert g2.(registry := R) == g;
    DisconnectUnregisteredIsNoOp(g, sid);
  }

  /** Re-registering an id whose new connect or write fails loses the old
      entry from memory, while the registry file, unless a truncating write
      left it unreadable, still lists it: the two now disagree. */
  lemma FailedReRegisterForgetsEntry(g: Gateway, server: Entry, p: Peers)
    requires Wf(g) && Saved(g) && Truthy(server.id) && server.id.value in g.registry.vals
    requires Dialled(server, p).Err? || p.persistError.Some?
    ensures var h := Register(g, server, p).0;
      var sid := server.id.value;
      && sid !in h.registry.vals
      && (h.persisted.Listed? ==> g.registry.vals[sid] in h.persisted.servers)
      && (h.persisted.Unreadable? ==> Dialled(server, p).Ok? && p.persistError.value.truncated)
      && !Saved(h)
  {
    var h := Register(g, server, p).0;
    var sid := server.id.value;
    assert Wf(h) && sid !in h.registry.vals by {
      RegisterFails(g, server, p);
    }
    assert h.persisted.Listed? ==> h.persisted == g.persisted by {
      RegisterFails(g, server, p);
    }
    StoredValueListed(g.registry, sid);
    EntryOfDroppedIdIsUnlisted(h.registry, g.registry.vals[sid], sid);
  }

  /** In a registry whose entries sit under their own ids, an entry for an id
      that is not registered is not among the values. */
  lemma EntryOfDroppedIdIsUnlisted(R: OMap<string, Entry>, e: Entry, sid: string)
    requires R.Valid() && sid !in R.vals && e.id == Some(sid)
    requires forall k :: k in R.vals ==> R.vals[k].id == Some(k)
    ensures e !in Values(R)
  {
    forall j | 0 <= j < |Values(R)| ensures Values(R)[j] != e {
      assert R.keys[j] != sid;
    }
  }

  /** Re-registering an id whose new connect fails leaves the old server's
      tools in the served catalog while no route leads to that server any more. */
  lemma FailedReRegisterLeavesStaleCatalog(g: Gateway, server: Entry, p: Peers)
    requires Wf(g) && Synced(g) && Truthy(server.id) && server.id.value in g.registry.vals
    requires Dialled(server, p).Err?
    ensures var h := Register(g, server, p).0;
      var sid := server.id.value;
      && h.tools == g.tools
      && (forall t :: t in g.serverTools.vals[sid] ==> t in h.tools)
      && (forall k :: k in h.toolMap ==> h.toolMap[k].serverId != sid)
  {
    RegisterFails(g, server, p);
    var sid := server.id.value;
    forall t | t in g.serverTools.vals[sid] ensures t in g.tools {
      CatalogMember(g.serverTools, t);
    }
  }

  /** A register whose connect succeeds but whose registry write fails keeps
      the catalog rebuilt with the new server's tools, although the rollback
      took away the id's session and every route to it: the catalog offers
      names that cannot be called. */
  lemma PersistFailureLeavesNewToolsListed(g: Gateway, server: Entry, p: Peers)
    requires Wf(g) && Truthy(server.id)
    requires Dialled(server, p).Ok? && p.persistError.Some?
    ensures var h := Register(g, server, p).0;
      var sid := server.id.value;
      var raw := Dialled(server, p).value;
      var kind := LaunchKind(Validate(server, p.host).value);
      && (forall i :: 0 <= i < |raw| ==> NamespaceTool(sid, kind, server.url, raw[i]) in h.tools)
      && (forall k :: k in h.toolMap ==> h.toolMap[k].serverId != sid)
      && sid !in h.sessions
  {
    var sid := server.id.value;
    var raw := Dialled(server, p).value;
    var kind := LaunchKind(Validate(server, p.host).value);
    var g4 := Rebuild(ConnectEntry(Recorded(g, sid, server), server, p).state);
    var ns := Namespace(sid, kind, server.url, raw);
    RegisterConnected(g, server, p);
    RegisterPersistFailed(g, server, p);
    RegisterFails(g, server, p);
    assert Register(g, server, p).0.tools == g4.tools;
    assert sid in g4.serverTools.vals && g4.serverTools.vals[sid] == ns;
    forall i | 0 <= i < |raw| ensures ns[i] in g4.tools {
      CatalogMember(g4.serverTools, ns[i]);
    }
  }

  /** Two servers whose ids and tool names contain dots can publish the same
      namespaced name; the one registered later takes the route over. */
  lemma DottedNamesCollide()
    ensures Dotted("a", "b.c") == Dotted("a.b", "c")
  {
  }

  lemma LaterRegistrationTakesRoute(g: Gateway, server: Entry, p: Peers, i: nat)
    requires Wf(g) && Truthy(server.id)
    requires Dialled(server, p).Ok? && p.persistError.None?
    requires i < |Dialled(server, p).value|
    requires Dotted(server.id.value, Dialled(server, p).value[i].name) in g.toolMap
    ensures var h := Register(g, server, p).0;
      var key := Dotted(server.id.value, Dialled(server, p).value[i].name);
      h.toolMap[key].serverId == server.id.value
  {
    RegisterSucceeds(g, server, p);
  }

  // ---------------------------------------------------------------------------
  // Unregister

  /** `unregister_server` keeps a reachable gateway reachable. */
  lemma UnregisterKeepsWf(g: Gateway, sid: string, p: Peers)
    requires Wf(g)
    ensures Wf(Unregister(g, sid, p).0)
  {
    if sid in g.registry.vals {
      LiveAfterDisconnect(g.(registry := Remove(g.registry, sid)), sid);
    }
  }

  /** After unregistering, every name that routed to the server is an unknown tool. */
  lemma UnregisteredToolsAreUnknown(g: Gateway, sid: string, p: Peers, name: string)
    requires Wf(g) && sid in g.registry.vals
    requires name in g.toolMap && g.toolMap[name].serverId == sid
    ensures CallTool(Unregister(g, sid, p).0, name, p) == Ok([Text("Error: Unknown tool '" + name + "'")])
  {
  }

  /** Unregistering keeps the other entries, in their order. */
  lemma UnregisterKeepsOthers(g: Gateway, sid: string, p: Peers)
    requires Wf(g) && sid in g.registry.vals
    ensures var h := Unregister(g, sid, p).0;
      && (forall k :: k in g.registry.vals && k != sid ==> k in h.registry.vals && h.registry.vals[k] == g.registry.vals[k])
      && exists i :: 0 <= i < |g.registry.keys| && g.registry.keys[i] == sid &&
           h.registry.keys == g.registry.keys[..i] + g.registry.keys[i + 1..]
  {
  }

  // ---------------------------------------------------------------------------
  // Invocation

  /** In a reachable gateway every routed name has a session, so a call to a
      routed name always reaches its server: the "No session" error never
      happens and the result is what the server returned (or raised). */
  lemma RoutedNamesReachServer(g: Gateway, name: string, p: Peers)
    requires Wf(g) && name in g.toolMap
    ensures g.toolMap[name].serverId in g.sessions
    ensures match p.invoke(g.toolMap[name])
      case Raised(msg) => CallTool(g, name, p) == Err(msg)
      case Returned(c) => CallTool(g, name, p) == Ok(if c == [] then [Text("")] else c)
  {
  }

  // ---------------------------------------------------------------------------
  // Start-up

  /** One step of the start-up loop. */
  lemma ConnectEachStep(g: Gateway, servers: seq<Entry>, p: Peers) returns (g1: Gateway)
    requires g.serverTools.Valid() && servers != []
    requires ConnectEach(g, servers, p).Connected?
    ensures g1 == ConnectEntry(g, servers[0], p).state && ConnectEntry(g, servers[0], p).Connected?
    ensures g1.serverTools.Valid()
    ensures ConnectEach(g, servers, p) == ConnectEach(g1, servers[1..], p)
    ensures Truthy(servers[0].id)
    ensures g1.sessions == g.sessions + {servers[0].id.value}
  {
    g1 := ConnectEntry(g, servers[0], p).state;
  }

  /** The start-up loop keeps the connection side consistent. */
  lemma {:induction false} ConnectEachLive(g: Gateway, servers: seq<Entry>, p: Peers)
    requires Live(g)
    requires ConnectEach(g, servers, p).Connected?
    ensures Live(ConnectEach(g, servers, p).state)
    decreases |servers|
  {
    if servers != [] {
      var g1 := ConnectEachStep(g, servers, p);
      LiveAfterConnect(g, servers[0], p);
      ConnectEachLive(g1, servers[1..], p);
    }
  }

  /** A completed start-up loop has opened a session for every entry and no other. */
  lemma {:induction false} ConnectEachSessions(g: Gateway, servers: seq<Entry>, p: Peers)
    requires g.serverTools.Valid()
    requires ConnectEach(g, servers, p).Connected?
    ensures forall i :: 0 <= i < |servers| ==>
      Truthy(servers[i].id) && servers[i].id.value in ConnectEach(g, servers, p).state.sessions
    ensures forall k :: k in ConnectEach(g, servers, p).state.sessions ==>
      k in g.sessions || exists i :: 0 <= i < |servers| && servers[i].id == Some(k)
    decreases |servers|
  {
    if servers != [] {
      var g1 := ConnectEachStep(g, servers, p);
      ConnectEachSessions(g1, servers[1..], p);
      var h := ConnectEach(g1, servers[1..], p).state;
      assert h == ConnectEach(g, servers, p).state;
      forall i | 0 <= i < |servers|
        ensures Truthy(servers[i].id) && servers[i].id.value in h.sessions
      {
        if i > 0 {
          assert servers[i] == servers[1..][i - 1];
        }
      }
      forall k | k in h.sessions
        ensures k in g.sessions || exists i :: 0 <= i < |servers| && servers[i].id == Some(k)
      {
        if k !in g1.sessions {
          var i :| 0 <= i < |servers[1..]| && servers[1..][i].id == Some(k);
          assert servers[i + 1].id == Some(k);
        } else if k !in g.sessions {
          assert servers[0].id == Some(k);
        }
      }
    }
  }

  /** The state start-up connects from: the file's registry, nothing connected yet. */
  function Initial(servers: seq<Entry>): (g0: Gateway)
    ensures Live(g0) && g0.sessions == {} && g0.persisted == Listed(servers)
    ensures g0.registry == BuildRegistry(Empty(), servers)
  {
    Gateway(BuildRegistry(Empty(), servers), {}, {}, {}, Empty(), [], map[], Listed(servers))
  }

  /** A completed start-up is the start-up loop's end state with its catalog rebuilt. */
  lemma StartupSteps(servers: seq<Entry>, p: Peers)
    requires Startup(servers, p).Ok?
    ensures forall i :: 0 <= i < |servers| ==> servers[i].id.Some?
    ensures ConnectEach(Initial(servers), servers, p).Connected?
    ensures Startup(servers, p).value == Rebuild(ConnectEach(Initial(servers), servers, p).state)
  {
    ConnectEachSessions(Initial(servers), servers, p);
  }

  /** The registry built from the file holds what it started with and every
      entry's id, and nothing else. */
  lemma {:induction false} BuildRegistryKeys(acc: OMap<string, Entry>, servers: seq<Entry>)
    requires acc.Valid()
    requires forall i :: 0 <= i < |servers| ==> servers[i].id.Some?
    ensures var r := BuildRegistry(acc, servers);
      && (forall k :: k in acc.vals ==> k in r.vals)
      && (forall i :: 0 <= i < |servers| ==> servers[i].id.value in r.vals)
      && (forall k :: k in r.vals ==> k in acc.vals || exists i :: 0 <= i < |servers| && servers[i].id == Some(k))
    decreases |servers|
  {
    if servers != [] {
      var next, rest := Put(acc, servers[0].id.value, servers[0]), servers[1..];
      BuildRegistryKeys(next, rest);
      var r := BuildRegistry(next, rest);
      forall i | 0 <= i < |servers| ensures servers[i].id.value in r.vals {
        if i > 0 { assert servers[i] == rest[i - 1]; }
      }
      forall k | k in r.vals
        ensures k in acc.vals || exists i :: 0 <= i < |servers| && servers[i].id == Some(k)
      {
        if k !in next.vals {
          var j :| 0 <= j < |rest| && rest[j].id == Some(k);
          assert servers[j + 1].id == Some(k);
        } else if k !in acc.vals {
          assert servers[0].id == Some(k);
        }
      }
    }
  }

  /** The registry built from the file files each entry under its own id. */
  lemma {:induction false} BuildRegistryIds(acc: OMap<string, Entry>, servers: seq<Entry>)
    requires acc.Valid()
    requires forall k :: k in acc.vals ==> acc.vals[k].id == Some(k)
    requires forall i :: 0 <= i < |servers| ==> servers[i].id.Some?
    ensures var r := BuildRegistry(acc, servers);
      forall k :: k in r.vals ==> r.vals[k].id == Some(k)
    decreases |servers|
  {
    if servers != [] {
      BuildRegistryIds(Put(acc, servers[0].id.value, servers[0]), servers[1..]);
    }
  }

  /** The registry built from the entries has exactly the entries' ids as
      keys, when those ids are the given (non-empty) names. */
  lemma RegistryMatchesSessions(servers: seq<Entry>, names: set<string>)
    requires forall i :: 0 <= i < |servers| ==> servers[i].id.Some?
    requires forall i :: 0 <= i < |servers| ==> Truthy(servers[i].id) && servers[i].id.value in names
    requires forall k :: k in names ==> exists i :: 0 <= i < |servers| && servers[i].id == Some(k)
    ensures forall k :: k in BuildRegistry(Empty(), servers).vals <==> k in names
    ensures forall k :: k in BuildRegistry(Empty(), servers).vals ==>
      k != "" && BuildRegistry(Empty(), servers).vals[k].id == Some(k)
  {
    var R := BuildRegistry(Empty(), servers);
    BuildRegistryKeys(Empty(), servers);
    BuildRegistryIds(Empty(), servers);
    forall k | k in R.vals ensures k in names && k != "" {
      assert k !in Empty<string, Entry>().vals;
      var i :| 0 <= i < |servers| && servers[i].id == Some(k);
      assert Truthy(servers[i].id);
    }
    forall k | k in names ensures k in R.vals {
      var i :| 0 <= i < |servers| && servers[i].id == Some(k);
      assert servers[i].id.value == k;
    }
  }

  /** The start-up loop's end state is reachable. */
  lemma LoopEndWf(servers: seq<Entry>, p: Peers)
    requires forall i :: 0 <= i < |servers| ==> servers[i].id.Some?
    requires ConnectEach(Initial(servers), servers, p).Connected?
    ensures Wf(ConnectEach(Initial(servers), servers, p).state)
    ensures forall i :: 0 <= i < |servers| ==>
      servers[i].id.value in ConnectEach(Initial(servers), servers, p).state.registry.vals
  {
    var g0 := Initial(servers);
    var h := ConnectEach(g0, servers, p).state;
    ConnectEachLive(g0, servers, p);
    assert Live(h);
    assert h.registry == BuildRegistry(Empty(), servers);
    SessionsAreEntries(servers, p);
    RegistryMatchesSessions(servers, h.sessions);
    SameKeys(h.registry.vals, h.sessions);
  }

  /** The start-up loop's sessions are exactly the entries' ids. */
  lemma SessionsAreEntries(servers: seq<Entry>, p: Peers)
    requires forall i :: 0 <= i < |servers| ==> servers[i].id.Some?
    requires ConnectEach(Initial(servers), servers, p).Connected?
    ensures var h := ConnectEach(Initial(servers), servers, p).state;
      && (forall i :: 0 <= i < |servers| ==> Truthy(servers[i].id) && servers[i].id.value in h.sessions)
      && (forall k :: k in h.sessions ==> exists i :: 0 <= i < |servers| && servers[i].id == Some(k))
  {
    var g0 := Initial(servers);
    ConnectEachSessions(g0, servers, p);
    assert g0.sessions == {};
  }

  /** A completed start-up is reachable, serves a current catalog, and
      remembers the file's server list as written. */
  lemma StartupWf(servers: seq<Entry>, p: Peers)
    requires Startup(servers, p).Ok?
    ensures var g := Startup(servers, p).value;
      && Wf(g) && Synced(g) && g.persisted == Listed(servers)
      && (forall i :: 0 <= i < |servers| ==> Truthy(servers[i].id) && servers[i].id.value in g.registry.vals)
  {
    StartupSteps(servers, p);
    var h := ConnectEach(Initial(servers), servers, p).state;
    LoopEndWf(servers, p);
    RebuildKeepsWf(h);
  }

  /** Recomputing the catalog touches nothing the invariant speaks of. */
  lemma RebuildKeepsWf(h: Gateway)
    requires Wf(h)
    ensures Wf(Rebuild(h)) && Rebuild(h).registry == h.registry
  {
  }
}

=== FILE: notes.dfy ===
/** The example tool server's in-memory note store (`NotesManager`): an
    insertion-ordered map from note id to note, plus a counter that names the
    next note `note-<counter>`. The counter starts at 1 and only grows, so an
    id is never handed out twice, even after the note it named is deleted.
    The creation time comes from the clock and is taken as a parameter. */
module Notes {
  import opened Base
  import opened OrderedMaps

  datatype Note = Note(id: string, title: string, content: string, createdAt: string)

  datatype NoteStore = NoteStore(notes: OMap<string, Note>, counter: nat)

  /** The reply of a successful delete: `{"success": True, "message": ...}`. */
  datatype Deleted = Deleted(success: bool, message: string)

  const NotePrefix := "note-"

  /** The id of the `n`-th note. */
  function NoteId(n: nat): string {
    NotePrefix + NatToString(n)
  }

  lemma NoteIdInjective(a: nat, b: nat)
    ensures NoteId(a) == NoteId(b) <==> a == b
  {
    if NoteId(a) == NoteId(b) {
      PrefixedNatInjective(NotePrefix, a, b);
    }
  }

  function NotFound(id: string): string {
    "Note with id '" + id + "' not found"
  }

  // ---------------------------------------------------------------------------
  // Well-formed stores

  ghost predicate IsNoteId(k: string) {
    exists n: nat :: k == NoteId(n)
  }

  /** The counter value a note id was made from. */
  ghost function NumberOf(k: string): (n: nat)
    requires IsNoteId(k)
    ensures NoteId(n) == k
  {
    var n: nat :| k == NoteId(n); n
  }

  lemma NumberOfNoteId(n: nat)
    ensures IsNoteId(NoteId(n)) && NumberOf(NoteId(n)) == n
  {
    NoteIdInjective(n, NumberOf(NoteId(n)));
  }

  /** Every key is a note id made from a counter value in `[1, counter)`. */
  ghost predicate Numbered(keys: seq<string>, counter: nat) {
    forall i :: 0 <= i < |keys| ==> IsNoteId(keys[i]) && 1 <= NumberOf(keys[i]) < counter
  }

  /** The keys' counter values increase along the sequence. */
  ghost predicate Ascending(keys: seq<string>) {
    forall i, j :: 0 <= i < j < |keys| && IsNoteId(keys[i]) && IsNoteId(keys[j]) ==>
      NumberOf(keys[i]) < NumberOf(keys[j])
  }

  /** Appending the id of the current counter value keeps the keys numbered
      and ascending, one counter value further on. */
  lemma {:induction false} AppendIssued(keys: seq<string>, counter: nat)
    requires Numbered(keys, counter) && Ascending(keys) && counter >= 1
    ensures Numbered(keys + [NoteId(counter)], counter + 1)
    ensures Ascending(keys + [NoteId(counter)])
  {
    var ks := keys + [NoteId(counter)];
    NumberOfNoteId(counter);
    forall i | 0 <= i < |ks| ensures IsNoteId(ks[i]) && 1 <= NumberOf(ks[i]) < counter + 1 {
      if i < |keys| { assert ks[i] == keys[i]; }
    }
    forall i, j | 0 <= i < j < |ks| && IsNoteId(ks[i]) && IsNoteId(ks[j])
      ensures NumberOf(ks[i]) < NumberOf(ks[j])
    {
      assert ks[i] == keys[i];
      if j < |keys| { assert ks[j] == keys[j]; }
    }
  }

  /** Cutting one key out keeps the others numbered and ascending. */
  lemma {:induction false} CutIssued(keys: seq<string>, counter: nat, i: nat)
    requires Numbered(keys, counter) && Ascending(keys) && i < |keys|
    ensures Numbered(keys[..i] + keys[i + 1..], counter)
    ensures Ascending(keys[..i] + keys[i + 1..])
  {
    var ks := keys[..i] + keys[i + 1..];
    assert forall a :: 0 <= a < |ks| ==> ks[a] == keys[if a < i then a else a + 1];
    forall a, b | 0 <= a < b < |ks| && IsNoteId(ks[a]) && IsNoteId(ks[b])
      ensures NumberOf(ks[a]) < NumberOf(ks[b])
    {
      var a', b' := if a < i then a else a + 1, if b < i then b else b + 1;
      assert ks[a] == keys[a'] && ks[b] == keys[b'];
    }
  }

  /** Every stored note sits under its own id; every id was made from a
      counter value already used; and the iteration order is the order of
      those counter values, which is the order of creation. */
  ghost predicate Inv(s: NoteStore) {
    && s.notes.Valid()
    && s.counter >= 1
    && (forall k :: k in s.notes.vals ==> s.notes.vals[k].id == k)
    && Numbered(s.notes.keys, s.counter)
    && Ascending(s.notes.keys)
  }

  /** An id made from the current counter, or any later value, is not stored. */
  lemma {:induction false} UnissuedIdIsAbsent(s: NoteStore, n: nat)
    requires Inv(s) && n >= s.counter
    ensures NoteId(n) !in s.notes.vals
  {
    forall i | 0 <= i < |s.notes.keys| ensures s.notes.keys[i] != NoteId(n) {
      NumberOfNoteId(n);
    }
  }

  // ---------------------------------------------------------------------------
  // Operations

  /** A new manager: no notes, counter 1. */
  function Init(): (s: NoteStore)
    ensures Inv(s)
    ensures Values(s.notes) == [] && s.counter == 1
  {
    NoteStore(Empty(), 1)
  }

  /** `create_note`: the note is named from the counter, the counter moves on,
      and the note is stored under its id. */
  function CreateNote(s: NoteStore, title: string, content: string, now: string): (r: (NoteStore, Note))
    requires s.notes.Valid()
    ensures r.1 == Note(NoteId(s.counter), title, content, now)
    ensures r.0.counter == s.counter + 1
    ensures r.0.notes.Valid()
    ensures r.0.notes.vals == s.notes.vals[r.1.id := r.1]
  {
    var note := Note(NoteId(s.counter), title, content, now);
    (NoteStore(Put(s.notes, note.id, note), s.counter + 1), note)
  }

  /** `get_note`: the stored note, or the not-found error. */
  function GetNote(s: NoteStore, id: string): (r: Result<Note, string>)
    requires s.notes.Valid()
    ensures r.Ok? <==> id in s.notes.vals
    ensures r.Ok? ==> r.value == s.notes.vals[id]
    ensures r.Err? ==> r.error == NotFound(id)
  {
    if id in s.notes.vals then Ok(s.notes.vals[id]) else Err(NotFound(id))
  }

  /** `list_notes`: the stored notes in iteration order. */
  function ListNotes(s: NoteStore): (r: seq<Note>)
    requires s.notes.Valid()
    ensures |r| == |s.notes.keys|
    ensures forall note :: note in r <==> exists k :: k in s.notes.vals && s.notes.vals[k] == note
  {
    var r := Values(s.notes);
    assert forall k :: k in s.notes.vals ==> exists i :: 0 <= i < |r| && s.notes.keys[i] == k;
    r
  }

  /** `delete_note`: the not-found error when the id is absent; otherwise the
      note is gone, the counter is untouched and the success reply names it. */
  function DeleteNote(s: NoteStore, id: string): (r: Result<(NoteStore, Deleted), string>)
    requires s.notes.Valid()
    ensures r.Err? <==> id !in s.notes.vals
    ensures r.Err? ==> r.error == NotFound(id)
    ensures r.Ok? ==>
      && r.value.0.notes.Valid()
      && r.value.0.notes.vals == s.notes.vals - {id}
      && r.value.0.counter == s.counter
      && r.value.1 == Deleted(true, "Note '" + id + "' deleted successfully")
  {
    if id !in s.notes.vals then Err(NotFound(id))
    else Ok((NoteStore(Remove(s.notes, id), s.counter), Deleted(true, "Note '" + id + "' deleted successfully")))
  }

  // ---------------------------------------------------------------------------
  // Properties

  /** Creating a note keeps the store well formed; the new id was not in use. */
  lemma {:induction false} CreateKeepsInv(s: NoteStore, title: string, content: string, now: string)
    requires Inv(s)
    ensures var (t, note) := CreateNote(s, title, content, now);
      && note.id !in s.notes.vals
      && t.notes.keys == s.notes.keys + [note.id]
      && Inv(t)
  {
    UnissuedIdIsAbsent(s, s.counter);
    AppendIssued(s.notes.keys, s.counter);
  }

  /** Reading back a note just created gives the same id, title and content. */
  lemma GetAfterCreate(s: NoteStore, title: string, content: string, now: string)
    requires s.notes.Valid()
    ensures var (t, note) := CreateNote(s, title, content, now);
      GetNote(t, note.id) == Ok(Note(note.id, title, content, now))
  {
  }

  /** A created note is listed last, after the notes that were there. */
  lemma ListAfterCreate(s: NoteStore, title: string, content: string, now: string)
    requires Inv(s)
    ensures var (t, note) := CreateNote(s, title, content, now);
      ListNotes(t) == ListNotes(s) + [note]
  {
    CreateKeepsInv(s, title, content, now);
    var (t, note) := CreateNote(s, title, content, now);
    assert forall i :: 0 <= i < |s.notes.keys| ==> t.notes.keys[i] == s.notes.keys[i];
  }

  /** A stored note carries the id it is stored under, and the notes are
      listed in the order of the counter values that named them. */
  lemma ListInCreationOrder(s: NoteStore)
    requires Inv(s)
    ensures forall i :: 0 <= i < |ListNotes(s)| ==> ListNotes(s)[i].id == s.notes.keys[i]
    ensures forall i, j :: 0 <= i < j < |ListNotes(s)| ==>
      IsNoteId(ListNotes(s)[i].id) && IsNoteId(ListNotes(s)[j].id)
      && NumberOf(ListNotes(s)[i].id) < NumberOf(ListNotes(s)[j].id)
  {
  }

  /** Looking up an absent id fails with the not-found message; a stored id
      gives back a note with that id. */
  lemma GetNoteResult(s: NoteStore, id: string)
    requires Inv(s)
    ensures GetNote(s, id).Ok? ==> GetNote(s, id).value.id == id
    ensures id !in s.notes.vals ==> GetNote(s, id) == Err(NotFound(id))
  {
  }

  /** Deleting keeps the store well formed; the other notes keep their
      relative order. */
  lemma {:induction false} DeleteKeepsInv(s: NoteStore, id: string)
    requires Inv(s)
    ensures DeleteNote(s, id).Ok? ==> Inv(DeleteNote(s, id).value.0)
  {
    if id in s.notes.vals {
      var t := DeleteNote(s, id).value.0;
      var i := IndexOf(s.notes.keys, id);
      assert t.notes.keys == s.notes.keys[..i] + s.notes.keys[i + 1..];
      InvAfterCut(s, t, i);
    }
  }

  /** A store holding some of another's notes, with one key cut out of its
      order and the same counter, is well formed when the other is. */
  lemma InvAfterCut(s: NoteStore, t: NoteStore, i: nat)
    requires Inv(s) && t.notes.Valid() && t.counter == s.counter && i < |s.notes.keys|
    requires t.notes.keys == s.notes.keys[..i] + s.notes.keys[i + 1..]
    requires forall k :: k in t.notes.vals ==> k in s.notes.vals && t.notes.vals[k] == s.notes.vals[k]
    ensures Inv(t)
  {
    CutIssued(s.notes.keys, s.counter, i);
  }

  /** Deleting a stored note lists the others in their former order, and any
      other note reads back unchanged; `i` is the deleted note's position. */
  lemma DeleteIsLocal(s: NoteStore, id: string, other: string) returns (i: nat)
    requires Inv(s)
    requires id in s.notes.vals && other != id
    ensures var t := DeleteNote(s, id).value.0;
      && GetNote(t, id) == Err(NotFound(id))
      && GetNote(t, other) == GetNote(s, other)
    ensures var t := DeleteNote(s, id).value.0;
      && i < |ListNotes(s)| && ListNotes(s)[i].id == id
      && ListNotes(t) == ListNotes(s)[..i] + ListNotes(s)[i + 1..]
  {
    i := ValuesOfRemove(s.notes, id);
    assert ListNotes(s)[i] == s.notes.vals[id];
  }

  /** Deleting an absent id, like reading one, changes nothing. */
  lemma DeleteAbsentFails(s: NoteStore, id: string)
    requires s.notes.Valid() && id !in s.notes.vals
    ensures DeleteNote(s, id) == Err(NotFound(id))
    ensures GetNote(s, id) == Err(NotFound(id))
  {
  }

  // ---------------------------------------------------------------------------
  // Histories

  /** A call on the manager: the creation time of `Create` is the clock's reading. */
  datatype Op = Create(title: string, content: string, now: string) | Get(id: string) | List | Delete(id: string)

  /** Run calls in order; a failed call changes nothing. Returns the final
      store and the ids `create_note` handed out, in order. */
  function Replay(s: NoteStore, ops: seq<Op>): (r: (NoteStore, seq<string>))
    requires s.notes.Valid()
    ensures r.0.notes.Valid()
    ensures r.0.counter == s.counter + |r.1|
    ensures forall a :: 0 <= a < |r.1| ==> r.1[a] == NoteId(s.counter + a)
    decreases |ops|
  {
    if ops == [] then (s, [])
    else
      match ops[0]
      case Create(title, content, now) =>
        var (t, note) := CreateNote(s, title, content, now);
        var (u, ids) := Replay(t, ops[1..]);
        (u, [note.id] + ids)
      case Get(_) => Replay(s, ops[1..])
      case List => Replay(s, ops[1..])
      case Delete(id) =>
        match DeleteNote(s, id)
        case Err(_) => Replay(s, ops[1..])
        case Ok((t, _)) => Replay(t, ops[1..])
  }

  /** Any history keeps the store well formed; the ids it hands out are all
      different and none of them is, or was ever, the id of a note stored at
      the start — deletes never free an id for reuse. */
  lemma IdsNeverReused(s: NoteStore, ops: seq<Op>)
    requires Inv(s)
    ensures var (t, ids) := Replay(s, ops);
      && Inv(t)
      && Distinct(ids)
      && (forall a :: 0 <= a < |ids| ==> ids[a] !in s.notes.vals)
  {
    var r := Replay(s, ops);
    assert Inv(r.0) by {
      ReplayKeepsInv(s, ops);
    }
    IssuedIdsAreFresh(s, r.1);
  }

  /** Ids numbered on from the counter are all different and none is stored. */
  lemma IssuedIdsAreFresh(s: NoteStore, ids: seq<string>)
    requires Inv(s)
    requires forall a :: 0 <= a < |ids| ==> ids[a] == NoteId(s.counter + a)
    ensures Distinct(ids)
    ensures forall a :: 0 <= a < |ids| ==> ids[a] !in s.notes.vals
  {
    forall a, b | 0 <= a < b < |ids| ensures ids[a] != ids[b] {
      NoteIdInjective(s.counter + a, s.counter + b);
    }
    forall a | 0 <= a < |ids| ensures ids[a] !in s.notes.vals {
      UnissuedIdIsAbsent(s, s.counter + a);
    }
  }

  lemma {:induction false} ReplayKeepsInv(s: NoteStore, ops: seq<Op>)
    requires Inv(s)
    ensures Inv(Replay(s, ops).0)
    decreases |ops|
  {
    if ops != [] {
      match ops[0]
      case Create(title, content, now) =>
        CreateKeepsInv(s, title, content, now);
        ReplayKeepsInv(CreateNote(s, title, content, now).0, ops[1..]);
      case Get(_) => ReplayKeepsInv(s, ops[1..]);
      case List => ReplayKeepsInv(s, ops[1..]);
      case Delete(id) =>
        DeleteKeepsInv(s, id);
        if id in s.notes.vals {
          ReplayKeepsInv(DeleteNote(s, id).value.0, ops[1..]);
        } else {
          ReplayKeepsInv(s, ops[1..]);
        }
    }
  }
}

=== FILE: ordered_map.dfy ===
/** Python's insertion-ordered `dict`: a sequence of distinct keys giving the
    iteration order, plus the key/value mapping. Assigning to a present key
    keeps its slot; assigning to a new key appends it; `del` removes the key
    and closes the gap, so the other keys keep their relative order. */
module OrderedMaps {

  /** No element occurs twice. */
  ghost predicate Distinct<K>(s: seq<K>) {
    forall i, j :: 0 <= i < j < |s| ==> s[i] != s[j]
  }

  datatype OMap<K, V> = OMap(keys: seq<K>, vals: map<K, V>) {

    /** The representation invariant: no key twice, and the order lists exactly the mapped keys. */
    ghost predicate Valid() {
      && Distinct(keys)
      && (forall k :: k in vals ==> k in keys)
      && (forall i :: 0 <= i < |keys| ==> keys[i] in vals)
    }
  }

  /** Cutting one position out of a sequence without repeats keeps it without repeats. */
  lemma CutOut<K>(s: seq<K>, i: nat)
    requires Distinct(s) && i < |s|
    ensures Distinct(s[..i] + s[i + 1..])
  {
    var t := s[..i] + s[i + 1..];
    assert forall a :: 0 <= a < |t| ==> t[a] == s[if a < i then a else a + 1];
  }

  function Empty<K, V>(): (m: OMap<K, V>)
    ensures m.Valid()
    ensures m.vals == map[] && m.keys == []
  {
    OMap([], map[])
  }

  /** Python `d[k] = v`. */
  function Put<K, V>(m: OMap<K, V>, k: K, v: V): (r: OMap<K, V>)
    requires m.Valid()
    ensures r.Valid()
    ensures k in r.vals && r.vals[k] == v
    ensures r.vals.Keys == m.vals.Keys + {k}
    ensures forall j :: j in m.vals && j != k ==> r.vals[j] == m.vals[j]
    ensures k in m.vals ==> r.keys == m.keys
    ensures k !in m.vals ==> r.keys == m.keys + [k]
  {
    if k in m.vals then OMap(m.keys, m.vals[k := v])
    else OMap(m.keys + [k], m.vals[k := v])
  }

  /** The position of `k` in a sequence that holds it. */
  function IndexOf<K(==)>(s: seq<K>, k: K): (i: nat)
    requires k in s
    ensures i < |s| && s[i] == k
    ensures forall j :: 0 <= j < i ==> s[j] != k
  {
    if s[0] == k then 0 else 1 + IndexOf(s[1..], k)
  }

  /** Python `if k in d: del d[k]`. */
  function Remove<K, V>(m: OMap<K, V>, k: K): (r: OMap<K, V>)
    requires m.Valid()
    ensures r.Valid()
    ensures k !in r.vals
    ensures r.vals.Keys == m.vals.Keys - {k}
    ensures forall j :: j in r.vals ==> r.vals[j] == m.vals[j]
    ensures k !in m.vals ==> r == m
    ensures k in m.vals ==>
      var i := IndexOf(m.keys, k); r.keys == m.keys[..i] + m.keys[i + 1..]
  {
    if k !in m.vals then m
    else
      var i := IndexOf(m.keys, k);
      RemovePresent(m, k);
      OMap(m.keys[..i] + m.keys[i + 1..], m.vals - {k})
  }

  /** Deleting a present key: the cut key order and the smaller mapping
      still describe one dictionary. */
  lemma RemovePresent<K, V>(m: OMap<K, V>, k: K)
    requires m.Valid() && k in m.vals
    ensures var i := IndexOf(m.keys, k);
      var r := OMap(m.keys[..i] + m.keys[i + 1..], m.vals - {k});
      && r.Valid()
      && r.vals.Keys == m.vals.Keys - {k}
  {
    var i := IndexOf(m.keys, k);
    CutOut(m.keys, i);
    CutKeepsStored(m, i);
    CutKeepsListed(m, i);
  }

  /** Every other stored key is still listed once a key's slot is cut out. */
  lemma CutKeepsListed<K, V>(m: OMap<K, V>, i: nat)
    requires m.Valid() && i < |m.keys|
    ensures var ks := m.keys[..i] + m.keys[i + 1..];
      forall j :: j in m.vals && j != m.keys[i] ==> j in ks
  {
    var ks := m.keys[..i] + m.keys[i + 1..];
    forall j | j in m.vals && j != m.keys[i] ensures j in ks {
      var b :| 0 <= b < |m.keys| && m.keys[b] == j;
      if b < i { assert ks[b] == j; } else { assert ks[b - 1] == j; }
    }
  }

  /** Every key left after cutting a slot out is stored and is not the cut one. */
  lemma CutKeepsStored<K, V>(m: OMap<K, V>, i: nat)
    requires m.Valid() && i < |m.keys|
    ensures var ks := m.keys[..i] + m.keys[i + 1..];
      forall a :: 0 <= a < |ks| ==> ks[a] in m.vals && ks[a] != m.keys[i]
  {
    var ks := m.keys[..i] + m.keys[i + 1..];
    forall a | 0 <= a < |ks| ensures ks[a] in m.vals && ks[a] != m.keys[i] {
      var b := if a < i then a else a + 1;
      assert ks[a] == m.keys[b] && b != i;
    }
  }

  /** Python `list(d.values())`. */
  function Values<K, V>(m: OMap<K, V>): (r: seq<V>)
    requires m.Valid()
    ensures |r| == |m.keys|
    ensures forall i :: 0 <= i < |r| ==> m.keys[i] in m.vals && r[i] == m.vals[m.keys[i]]
  {
    seq(|m.keys|, i requires 0 <= i < |m.keys| => m.vals[m.keys[i]])
  }

  /** Every stored value is listed by `values()`. */
  lemma StoredValueListed<K, V>(m: OMap<K, V>, k: K)
    requires m.Valid() && k in m.vals
    ensures m.vals[k] in Values(m)
  {
    assert Values(m)[IndexOf(m.keys, k)] == m.vals[k];
  }

  /** A key that was absent and is put then removed leaves no trace. */
  lemma RemoveAfterPutFresh<K, V>(m: OMap<K, V>, k: K, v: V)
    requires m.Valid()
    requires k !in m.vals
    ensures Remove(Put(m, k, v), k) == m
  {
    var p := Put(m, k, v);
    assert p.keys == m.keys + [k];
    assert IndexOf(p.keys, k) == |m.keys| by {
      assert k !in m.keys;
    }
    assert p.keys[..|m.keys|] == m.keys;
    assert p.vals - {k} == m.vals;
  }

  /** After `d[k] = v` every value is either `v` or one that was already there. */
  lemma ValuesOfPut<K, V>(m: OMap<K, V>, k: K, v: V, x: V)
    requires m.Valid()
    ensures x in Values(Put(m, k, v)) ==> x == v || x in Values(m)
  {
    var r := Put(m, k, v);
    if x in Values(r) {
      var i :| 0 <= i < |Values(r)| && Values(r)[i] == x;
      var j := r.keys[i];
      if j != k {
        assert j in m.vals;
        var a :| 0 <= a < |m.keys| && m.keys[a] == j;
        assert Values(m)[a] == x;
      }
    }
  }

  /** Removing a key keeps the values of the others in their order: the
      value at the key's position is cut out. */
  lemma ValuesOfRemove<K, V>(m: OMap<K, V>, k: K) returns (i: nat)
    requires m.Valid()
    requires k in m.vals
    ensures i < |m.keys| && m.keys[i] == k
    ensures Values(Remove(m, k)) == Values(m)[..i] + Values(m)[i + 1..]
  {
    i := IndexOf(m.keys, k);
    var r := Remove(m, k);
    var ks, vs, us := r.keys, Values(r), Values(m);
    assert ks == m.keys[..i] + m.keys[i + 1..];
    forall a | 0 <= a < |vs| ensures vs[a] == us[if a < i then a else a + 1] {
      assert ks[a] == m.keys[if a < i then a else a + 1];
    }
    SkipOne(us, vs, i);
  }

  /** A sequence that reads `s` with position `i` skipped is `s` with it cut out. */
  lemma SkipOne<T>(s: seq<T>, t: seq<T>, i: nat)
    requires i < |s| && |t| == |s| - 1
    requires forall a :: 0 <= a < |t| ==> t[a] == s[if a < i then a else a + 1]
    ensures t == s[..i] + s[i + 1..]
  {
    var w := s[..i] + s[i + 1..];
    forall a | 0 <= a < |t| ensures t[a] == w[a] {
      if a < i { assert w[a] == s[a]; } else { assert w[a] == s[a + 1]; }
    }
  }
}

=== FILE: protocol.dfy ===
/** The vocabulary the gateway and the client share: tool descriptors with
    their routing metadata, content items, server entries as read from the
    registry (or from the arguments of an admin call), the launch parameters a
    transport is opened with, and the oracles standing for everything outside
    the process (file system, downstream peers). */
module Protocol {
  import opened Base

  // ---------------------------------------------------------------------------
  // Transport kinds

  /** The three transports a server entry may name. */
  datatype Kind = Stdio | Sse | StreamableHttp

  /** The `type` string a kind is written as in entries and in tool metadata. */
  function KindName(k: Kind): string {
    match k
    case Stdio => "stdio"
    case Sse => "sse"
    case StreamableHttp => "streamable-http"
  }

  /** Reads a `type` string; `None` for an unsupported one. */
  function ParseKind(s: string): (r: Option<Kind>)
    ensures r.Some? ==> KindName(r.value) == s
    ensures r.None? ==> forall k: Kind :: KindName(k) != s
  {
    if s == "stdio" then Some(Stdio)
    else if s == "sse" then Some(Sse)
    else if s == "streamable-http" then Some(StreamableHttp)
    else None
  }

  /** The network-stream type names `{"sse", "streamable-http"}`. */
  predicate IsNetworkType(s: string) {
    s == "sse" || s == "streamable-http"
  }

  lemma NetworkKinds(k: Kind)
    ensures IsNetworkType(KindName(k)) <==> k != Stdio
  {
  }

  // ---------------------------------------------------------------------------
  // Tools, metadata, content

  /** A tool's `_meta` dict, one field per key the gateway writes. The client
      reads `server_id` with a default, so for that key JSON null and a
      missing key differ; the other keys read both as `None`. */
  datatype Meta = Meta(
    serverId: StringField,
    serverType: Option<string>,
    originalName: Option<string>,
    serverUrl: Option<string>,
    directCallAllowed: Option<bool>)

  /** The empty `_meta` dict (a tool without metadata reads as `{}`). */
  const NoMeta: Meta := Meta(Absent, None, None, None, None)

  /** A tool descriptor; the description and JSON input schema are carried unchanged. */
  datatype Tool = Tool(name: string, description: string, inputSchema: string, meta: Meta)

  /** A content item of a tool result: text, or any non-text item. */
  datatype Content = Text(text: string) | NonText(kind: string)

  /** What a downstream `call_tool` does: return content, or raise. */
  datatype CallOutcome = Returned(content: seq<Content>) | Raised(message: string)

  /** Where a namespaced tool routes: the owning server id and the tool's own name. */
  datatype Target = Target(serverId: string, originalName: string)

  // ---------------------------------------------------------------------------
  // Server entries

  /** A string-valued key of a JSON object: missing, JSON null, or a string. */
  datatype StringField = Absent | Null | Given(value: string)

  /** A server entry as a JSON object. The arguments of `admin.register_server`
      are stored verbatim as the entry, so the admin token key is part of it.
      The keys whose missing and null forms the source tells apart (`admin_token`,
      `id`, `type`) are three-valued; for the others `.get` reads both as `None`. */
  datatype Entry = Entry(
    adminToken: StringField,
    idField: StringField,
    kind: StringField,
    command: Option<string>,
    args: seq<string>,
    env: Option<map<string, string>>,
    url: Option<string>,
    headers: Option<map<string, string>>)
  {
    /** `server.get("id")`: a missing key and JSON null both read as `None`. */
    const id: Option<string> := if idField.Given? then Some(idField.value) else None
  }

  /** `server.get("type", "stdio")` as the source compares and prints it: a
      missing key is `stdio`, and JSON null prints as `None`, which, like any
      string other than the three type names, names no transport. */
  function EntryType(e: Entry): string {
    match e.kind
    case Absent => "stdio"
    case Null => "None"
    case Given(s) => s
  }

  /** A network URL as the gateway accepts it: present and starting with `http`. */
  predicate UrlOk(url: Option<string>) {
    Truthy(url) && StartsWith(url.value, "http")
  }

  // ---------------------------------------------------------------------------
  // Launch parameters and the outside world

  /** The parameters a transport is opened with. */
  datatype Launch =
    | SpawnLaunch(command: string, args: seq<string>, env: Option<map<string, string>>)
    | SseLaunch(url: string, headers: Option<map<string, string>>)
    | HttpLaunch(url: string, headers: Option<map<string, string>>)

  /** What opening, initialising and listing a downstream server gives: its
      tools, or the message of the failure (refused, timed out, bad handshake). */
  datatype LinkOutcome = Linked(tools: seq<Tool>) | LinkFailed(message: string)

  /** The host process: the interpreter path (`sys.executable`), the directory
      relative arguments are resolved against, and the file system as two
      oracles (`Path.exists` and `Path.resolve`). */
  datatype Host = Host(
    python: string,
    baseDir: string,
    fileExists: string -> bool,
    canonical: string -> string)

  predicate IsAbsolute(path: string) {
    |path| > 0 && path[0] == '/'
  }

  /** `Path(base) / path`: an absolute right operand replaces the base. */
  function Join(base: string, path: string): string {
    if IsAbsolute(path) then path else base + "/" + path
  }

  /** Whether an argument names a file: as given, or relative to the base directory. */
  predicate ArgFound(h: Host, arg: string) {
    h.fileExists(arg) || (!IsAbsolute(arg) && h.fileExists(Join(h.baseDir, arg)))
  }

  /** One stdio argument after resolution. */
  function ResolveArg(h: Host, arg: string): (r: string)
    ensures !ArgFound(h, arg) ==> r == arg
    ensures ArgFound(h, arg) && IsAbsolute(arg) ==> r == h.canonical(arg)
    ensures ArgFound(h, arg) && !IsAbsolute(arg) ==> r == h.canonical(h.baseDir + "/" + arg)
  {
    if ArgFound(h, arg) then h.canonical(Join(h.baseDir, arg)) else arg
  }

  /** The stdio argument list after resolution, position by position. */
  function ResolveArgs(h: Host, args: seq<string>): (r: seq<string>)
    ensures |r| == |args|
    ensures forall i :: 0 <= i < |args| ==> r[i] == ResolveArg(h, args[i])
  {
    if args == [] then [] else [ResolveArg(h, args[0])] + ResolveArgs(h, args[1..])
  }

  /** A relative argument that exists only in the working directory is still
      rewritten to the base directory, whether or not a file is there. */
  lemma RelativeArgRebased(h: Host, arg: string)
    requires !IsAbsolute(arg) && h.fileExists(arg) && !h.fileExists(h.baseDir + "/" + arg)
    ensures ResolveArg(h, arg) == h.canonical(h.baseDir + "/" + arg)
  {
  }

  /** `server.get("command") or sys.executable`, then `"python"` means the interpreter. */
  function Interpreter(command: Option<string>, python: string): (c: string)
    ensures !Truthy(command) ==> c == python
    ensures Truthy(command) && command.value != "python" ==> c == command.value
    ensures Truthy(command) && command.value == "python" ==> c == python
  {
    var chosen := if Truthy(command) then command.value else python;
    if chosen == "python" then python else chosen
  }

  // ---------------------------------------------------------------------------
  // The gateway's routing table

  /** The routing entries `<sid>.<name> -> (sid, name)` for a server's tools,
      written into `m` one tool at a time, in list order. */
  function NamespaceRoutes(m: map<string, Target>, sid: string, raw: seq<Tool>): (r: map<string, Target>)
    ensures forall i :: 0 <= i < |raw| ==>
      Dotted(sid, raw[i].name) in r && r[Dotted(sid, raw[i].name)] == Target(sid, raw[i].name)
    ensures forall k :: k in r ==> k in m || exists i :: 0 <= i < |raw| && k == Dotted(sid, raw[i].name)
    ensures forall k :: k in m ==> k in r
    ensures forall k :: k in m && (forall i :: 0 <= i < |raw| ==> k != Dotted(sid, raw[i].name)) ==> r[k] == m[k]
    decreases |raw|
  {
    if raw == [] then m
    else
      var key := Dotted(sid, raw[0].name);
      var r := NamespaceRoutes(m[key := Target(sid, raw[0].name)], sid, raw[1..]);
      assert key in r && r[key] == Target(sid, raw[0].name) by {
        forall i | 0 <= i < |raw[1..]| && key == Dotted(sid, raw[1..][i].name)
          ensures raw[1..][i].name == raw[0].name
        {
          DottedCancel(sid, raw[0].name, raw[1..][i].name);
        }
      }
      assert forall i :: 1 <= i < |raw| ==> raw[i] == raw[1..][i - 1];
      r
  }
}
